=== FILE: README.md ===
# Lotto game core in Dafny

A Dafny model of the Russian lotto ("лото") console game: cards of 3 rows by 9
columns with 5 numbers per row, a bag of 90 barrels drawn without replacement,
human and robot players who strike the drawn number or skip it, and the round
loop that ends on a full card, on the last player standing, or on an empty bag.

The model follows `lotto.py` and `constants.py`:

| file | module | what it holds |
|---|---|---|
| `wrappers.dfy` | `Wrappers` | `Option` and `Result` |
| `constants.dfy` | `Constants` | the game constants, `GameStatus`, the number range 1..90 |
| `seqs.dfy` | `Seqs` | distinctness, `sorted`, the list-comprehension filter, `list.remove` |
| `cards.dfy` | `Cards` | `LottoCard`: argument validation, card generation, lookup, striking |
| `barrels.dfy` | `Barrels` | `Lotto`: the shuffled bag and `draw` |
| `players.dfy` | `Players` | `Player`: `update_moves_list`, `check_move`; `check_barrel` is `Cards.Locate` |
| `rounds.dfy` | `Rounds` | `PlayRound`: construction and the `run_play_round` loop |

Everything random or interactive is a parameter:

- the two `random.sample` calls per card row are a `RowPick`, and `ValidPicks` says what `random.sample` can return;
- `random.shuffle` is a `shuffled` sequence that is a permutation of 1..90;
- a robot's mistake draw (`random.random() <= mistake_rate`) is a boolean `erred`;
- a human's console answer is a boolean;
- the answers and mistake draws for a whole round come from an `oracle` indexed by move number and player.

A card cell is `Blank`, `Num(n)` or `Cross`. The source compares the whole
DataFrame with the barrel (`df == barrel`). That comparison is `Matches`: a
blank cell holds `BLANK` (0), and a cross is a string that never equals a
number. Players in a round are referred to by their index; `roster` is the
source's `self.players` list, in turn order.
`Kept` is the roster a pass leaves behind: the roster filtered, in order, for
the players offered the barrel whose answer was LOOSE. `ContinuesTo` relates a
state to those reached from it by draws whose passes all went on.

`NUMBERS_IN_CARD` is imported by `lotto.py:7-10` but is not defined in
`constants.py`; the model defines it as `CARD_ROWS * NUMBERS_PER_ROW` (15),
the number of populated cells on a card. `CROSS_STR` is missing there too; it
is used only by the display code, which is not modelled.

## Model

| member | source | states |
|---|---|---|
| `Constants.NumberRangeExact` | constants.py:12-13 | `NUMBER_RANGE` has 90 entries, holds exactly the numbers 1..90, and is strictly ascending |
| `Constants.BlankOutsideRange` | constants.py:13-17 | the blank marker 0 is never a barrel number |
| `Constants.GameStatusClosed` | constants.py:6-9 | a turn status is one of NEXT_MOVE, WIN, LOOSE, and the three differ |
| `Seqs.DistinctIffSetSize` | lotto.py:25 | `len(set(numbers)) == len(numbers)` holds exactly when the list has no duplicates |
| `Seqs.Sort` | lotto.py:45-46 | `sorted` returns an ascending permutation of its argument |
| `Seqs.SortDistinct` | lotto.py:45-46 | sorting distinct samples gives a strictly ascending list with the same members |
| `Seqs.Without` | lotto.py:51 | the filter keeps exactly the pool members not in the row's numbers and never lengthens the pool |
| `Seqs.WithoutLength` | lotto.py:51 | removing a row's 5 distinct pool numbers shrinks a distinct pool by exactly 5 |
| `Seqs.RemoveFirst` | lotto.py:223 | `players.remove(player)` on a present player drops that player, shortens the roster by one, keeps everybody else, and keeps the roster duplicate-free |
| `Seqs.RemoveFirstSplits` | lotto.py:223 | `list.remove` cuts out the first occurrence and keeps the rest in order |
| `Cards.OnlyNumbersMatchBarrels` | lotto.py:82 | for a real barrel, a cell equals it exactly when the cell holds that number; blanks and crosses never match |
| `Cards.InitialPool` | lotto.py:20-29 | no argument gives 1..90; otherwise the list is rejected for fewer than 15 numbers, then for duplicates, then for a number outside 1..90, in that order; a list that passes all three checks is accepted and kept as given |
| `Cards.FillRowNumbers` | lotto.py:43-48 | reading a filled row left to right gives the row's numbers in order |
| `Cards.FillRowNumberCell` | lotto.py:48 | the column chosen for a number holds that number |
| `Cards.FillRowBlankCell` | lotto.py:43 | a column that was not chosen keeps the blank |
| `Cards.BuildRow` | lotto.py:43-48 | a row has 9 cells and no cross, and reading it left to right gives `nums` |
| `Cards.BuildRowCells` | lotto.py:43-48 | the row is the dict `{c: BLANK} updated with zip(row_indices, row_numbers)`: chosen columns hold their numbers, all others are blank |
| `Cards.CellsAreNumbersOrBlanks` | lotto.py:43-48 | a row without crosses consists of its number cells and its blank cells, and nothing else |
| `Cards.WellFormedRowBlanks` | lotto.py:43-48 | a generated row has 9 - 5 = 4 blank cells |
| `Cards.PickRow` | lotto.py:45-48 | a generated row is well formed, holds exactly the sampled numbers, and reads them in ascending order |
| `Cards.PickRowCells` | lotto.py:43-48 | in a generated row the k-th smallest sampled number sits in the k-th smallest sampled column, and a cell is blank exactly when its column was not sampled |
| `Cards.CreateRows` | lotto.py:41-51 | each generated row is well formed; all numbers on the card are distinct and come from the pool; the leftover pool is the pool minus the card's numbers |
| `Cards.CreateRowsRowFollows` | lotto.py:41-50 | row i of the grid is built from the i-th pair of samples: it reads their sorted numbers, and its blanks are exactly the unsampled columns |
| `Cards.CreateRowsFollowsPicks` | lotto.py:41-50 | every row of the grid follows its own samples |
| `Cards.CreateCard` | lotto.py:40-56 | a card has 3 well-formed rows with 15 distinct numbers from the pool, each row follows its samples, and its `numbers` ends as the pool minus those 15 |
| `Cards.NewCard` | lotto.py:14-30 | `LottoCard(numbers)` raises on exactly the rejected arguments and otherwise generates a card from the accepted pool whose rows follow the samples |
| `Cards.FirstPicksValid` | lotto.py:42-51 | a distinct pool of at least 5 per row always admits valid samples for every row |
| `Cards.ValidatedPoolAdmitsCard` | lotto.py:20-30 | every argument that passes validation can be turned into a card |
| `Cards.FindInRow` | lotto.py:82-85 | the first matching column of a row, or none when no cell matches |
| `Cards.Locate` | lotto.py:82-88 | `check_barrel` returns the first match in row-major order, or nothing when no cell matches |
| `Cards.CrossOut` | lotto.py:103 | writing CROSS changes exactly the one cell and keeps the grid's shape |
| `Cards.CrossOutNumbers` | lotto.py:103 | crossing a number cell removes exactly that number from the card's numbers |
| `Cards.LocateMissStaysMiss` | lotto.py:82-88 | a barrel that is not on the card is still not found after any strike |
| `Barrels.NewLotto` | lotto.py:166-168 | a fresh bag is the shuffled list itself: 90 distinct barrels, exactly the numbers 1..90, whatever `max_number` is |
| `Barrels.Draw` | lotto.py:170-176 | `draw` returns None exactly when the bag is empty and leaves it untouched then; otherwise it pops the last barrel |
| `Barrels.DrawMany` | lotto.py:170-176 | k draws return min(k, bag size) barrels, and drawn plus remaining is the original bag |
| `Barrels.DrawManyDistinct` | lotto.py:170-176 | no barrel is drawn twice, and none drawn is still in the bag |
| `Barrels.FullDrawIsPermutation` | lotto.py:166-176 | 90 draws from a fresh bag give every number 1..90 once; the next draw returns None |
| `Barrels.ExhaustedStaysExhausted` | lotto.py:176 | an empty bag keeps returning None and stays empty |
| `Players.NewPlayer` | lotto.py:60-73 | a new player has no moves; a given card is kept; otherwise a fresh card of 3 well-formed rows with 15 distinct numbers from 1..90 is generated, each row following its samples |
| `Players.UpdateMoves` | lotto.py:90-109 | the move is appended, the cell becomes a cross, and the status is WIN exactly when 15 moves are recorded, NEXT_MOVE otherwise |
| `Players.UpdateMovesConsistent` | lotto.py:99-109 | striking a number cell keeps moves and unstruck numbers adding up to 15, and WIN means no unstruck number is left |
| `Players.Decision` | lotto.py:123-129 | a human's decision is their own answer; a robot's decision is correct exactly when it does not err |
| `Players.CheckMove` | lotto.py:111-144 | LOOSE exactly when the decision disagrees with the card; a correct skip is NEXT_MOVE; only a correct strike changes the player |
| `Players.RobotIgnoresStrikeOut` | lotto.py:123-129 | a robot's result does not depend on the `strike_out` passed in |
| `Players.HumanIgnoresMistake` | lotto.py:123-129 | a human is never subject to the mistake draw |
| `Players.RobotOutcome` | lotto.py:123-144 | a robot that does not err is never eliminated; one that errs is always eliminated, unchanged |
| `Players.CheckMoveConsistent` | lotto.py:119-144 | for any real barrel a turn keeps the bookkeeping consistent, moves never exceed 15, and WIN comes with a fully crossed card |
| `Players.CorrectSkipChangesNothing` | lotto.py:134-136 | a barrel not on the card, correctly skipped, leaves the player unchanged with NEXT_MOVE |
| `Rounds.NewRound` | lotto.py:180-190 | construction fails exactly for fewer than 2 or more than 5 players; otherwise all players are in, the move counter is 0, and the bag is the shuffled list |
| `Rounds.TakeTurn` | lotto.py:208-223 | the player's new state and the turn's status are `check_move`'s on this barrel for the player's answer (a robot is handed no answer); no other player changes; LOOSE takes that player out of the roster and nobody else; WIN comes with 15 moves |
| `Rounds.TakeTurnCutsOut` | lotto.py:221-223 | `players.remove(player)` on a LOOSE cuts exactly that player out of the roster at their position and keeps everybody else in the same order |
| `Rounds.KeptMembers` | lotto.py:207-223 | the roster filter keeps a player exactly when they are in the roster and either were not offered the barrel or did not answer LOOSE |
| `Rounds.TakeTurnKept` | lotto.py:215-223 | one turn is one step of that filter: the roster after it, filtered for the players still to come, is the roster before it filtered for this player and those still to come |
| `Rounds.PlayTurns` | lotto.py:209-232 | the inner loop keeps the bag and move counter, only shrinks the roster, and names a winner from the roster |
| `Rounds.PlayTurnsKeepsOthers` | lotto.py:209 | players not offered the barrel in this pass, including those already out of the round, are never touched |
| `Rounds.PlayTurnsKeepsRoster` | lotto.py:209-224 | on a pass that goes on, a roster player not offered the barrel stays in the roster |
| `Rounds.PlayTurnsOffered` | lotto.py:209-224 | on a pass that goes on, every snapshot player was offered the barrel against their state at the start of the pass, ends as `check_move` left them, did not win, and is in the roster exactly when they did not LOOSE |
| `Rounds.PlayTurnsWinnerOffered` | lotto.py:209-220 | a winner is one of the snapshot players |
| `Rounds.PlayTurnsWinnerAt` | lotto.py:209-220 | a WIN returns at once: the winner won on this barrel, everyone before them in the snapshot played without winning, and nobody after them played |
| `Rounds.PlayTurnsRoster` | lotto.py:207-226 | on a pass that goes on, the roster is the one the pass started with, in the same order, without exactly the snapshot players whose answer was LOOSE |
| `Rounds.PlayTurnsEndedByLoss` | lotto.py:207-232 | a pass that stops without a winner stopped at a snapshot player whose answer was LOOSE: everybody before them in the snapshot played against their state at the start of the pass without winning, nobody after them played, and the roster, now under 2, is the starting one in order without the LOOSE players up to the last one |
| `Rounds.PlayTurnsOutcome` | lotto.py:215-232 | a winner has 15 moves; the last one standing is alone in the roster; from 2 players on, a pass that goes on keeps at least 2 and the roster never empties |
| `Rounds.DrawRound` | lotto.py:203-235 | one pass of the `while` loop draws one barrel and advances the move counter, or ends in a draw on an empty bag |
| `Rounds.DrawRoundOffersDrawn` | lotto.py:203-224 | the barrel offered is the one popped from the end of the bag and the answers are those for the new move number; on a pass that goes on, every roster player ends as `check_move` left them, and the roster keeps exactly those who did not LOOSE; a winner won on that barrel |
| `Rounds.DrawRoundRemovesLosers` | lotto.py:202-232 | on a pass that goes on, the roster is the one before the draw, in order, without exactly the players whose answer to the popped barrel was LOOSE; a pass that stops with neither a winner nor an empty bag stopped at the first LOOSE that left fewer than 2 players |
| `Rounds.DrawRoundOutcome` | lotto.py:203-232 | the outcome facts of the inner loop carry over to a whole pass |
| `Rounds.RunRound` | lotto.py:203-238 | the move counter equals the number of barrels drawn; a draw outcome means the bag is empty; a winner or survivor is a player of the round |
| `Rounds.RunRoundLastPass` | lotto.py:202-238 | the round ends with the draw made from a state reached by draws whose passes all went on: a pass that goes on is always followed by the next draw, and the round ends on the first draw that stops |
| `Rounds.PlayRound` | lotto.py:180-238 | with 2 to 5 players a round never ends with nobody left; it ends after 1 to 90 moves, and a draw ends after exactly 90 |
| `Rounds.TakeTurnConsistent` | lotto.py:209-223 | a turn keeps every player's bookkeeping consistent |
| `Rounds.PlayTurnsConsistent` | lotto.py:209-232 | the inner loop keeps every player consistent, and a WIN is a fully crossed card |
| `Rounds.DrawRoundConsistent` | lotto.py:203-232 | one draw keeps every player consistent |
| `Rounds.RunRoundConsistent` | lotto.py:203-238 | over a whole round every player stays consistent, and the winner's card is fully crossed out |
| `Rounds.RunRoundMovesBounded` | lotto.py:106-109 | no player ever records more than 15 moves |
| `Rounds.AbsentBarrelKeepsRound` | lotto.py:209-215 | a barrel on none of the cards, correctly skipped by everybody, leaves the round unchanged |
| `Rounds.EliminatedPlayerLeaves` | lotto.py:221-232 | a player whose turn ends in LOOSE is out of the roster when the pass ends and so cannot be the last one standing |

## Left out

- Console output: `print`, `print_cards` and `show_card` only display state. `show_card` uses `CROSS_STR`, which `constants.py` does not define.
- Parsing of a human's console reply: `input(...).strip().lower() in [...]` is reduced to the boolean it yields.
- `MISTAKE_RATE` and the robot's `random.random() > mistake_rate` comparison are floating point. The model takes the comparison's outcome as the `erred` flag.
- Which samples, shuffle and mistake draws are likely: only which ones are possible is modelled.
- pandas and numpy types: the DataFrame is a sequence of rows of cells. The dtype change when a string cross is written into an integer column is not modelled.
- The `__main__` block and any setup of players outside `PlayRound`.
- Card aliasing: the source keeps the caller's `LottoCard` object (`lotto.py:70`) and crosses cells on it in place (`lotto.py:103`), so a card shared by two players, or still held by the caller, sees every strike. The model stores a card value per player and returns the updated player instead.
- Passing the same `Player` object twice to `PlayRound`: players are distinct indices here, while `list.remove` on a repeated object would remove its first copy.
- Rounds.RunRound: requires a bag of real barrels (1..90), which every round starts with. Under it, the source's exit on a falsy barrel (0) cannot happen; the model keeps that branch.
- Players.CheckMoveConsistent: requires the barrel not to be `BLANK` (0). A 0 would match a blank cell, and no bag holds 0.
- Seqs.RemoveFirst: requires the element to be in the list. Python's `list.remove` raises `ValueError` otherwise; the round only removes the player whose turn it is, who is in the roster.

=== FILE: barrels.dfy ===
/** The barrel bag (class Lotto): a shuffled copy of 1..LOTTO_NUM, drawn from its end. */
module Barrels {
  import opened Wrappers
  import opened Constants
  import opened Seqs

  /** The barrels still in the bag; the next draw takes the last one. */
  datatype Lotto = Lotto(numbers: seq<int>)

  /** `Lotto(max_number)`: the argument is ignored; `shuffled` is what `random.shuffle` made of NUMBER_RANGE. */
  function NewLotto(maxNumber: int, shuffled: seq<int>): (l: Lotto)
    requires multiset(shuffled) == multiset(NumberRange())
    ensures l.numbers == shuffled
    ensures |l.numbers| == LOTTO_NUM && Distinct(l.numbers)
    ensures forall x :: x in l.numbers <==> 1 <= x <= LOTTO_NUM
  {
    NumberRangeExact();
    AscendingIncreasingDistinct(NumberRange());
    DistinctPermutation(NumberRange(), shuffled);
    assert forall x :: x in shuffled <==> x in multiset(shuffled);
    assert forall x :: x in NumberRange() <==> x in multiset(NumberRange());
    assert |shuffled| == |multiset(shuffled)| == |multiset(NumberRange())| == |NumberRange()|;
    Lotto(shuffled)
  }

  /** `draw`: pop the last barrel, or None (bag untouched) once the bag is empty. */
  function Draw(l: Lotto): (res: (Option<int>, Lotto))
    ensures |l.numbers| == 0 <==> res.0.None?
    ensures res.0.None? ==> res.1 == l
    ensures res.0.Some? ==> res.1.numbers + [res.0.value] == l.numbers
    ensures res.0.Some? ==> multiset(res.1.numbers) + multiset{res.0.value} == multiset(l.numbers)
  {
    if |l.numbers| == 0 then (None, l)
    else
      var last := |l.numbers| - 1;
      assert l.numbers[..last] + [l.numbers[last]] == l.numbers;
      (Some(l.numbers[last]), Lotto(l.numbers[..last]))
  }

  /** The barrels returned by k consecutive draws (None results dropped), and the bag afterwards. */
  function DrawMany(l: Lotto, k: nat): (res: (seq<int>, Lotto))
    ensures |res.0| == if k <= |l.numbers| then k else |l.numbers|
    ensures multiset(res.0) + multiset(res.1.numbers) == multiset(l.numbers)
    decreases k
  {
    if k == 0 then
      ([], l)
    else
      var (b, l') := Draw(l);
      var (later, rest) := DrawMany(l', k - 1);
      match b
      case None => (later, rest)
      case Some(x) =>
        assert multiset([x] + later) == multiset{x} + multiset(later);
        ([x] + later, rest)
  }

  /** No barrel is drawn twice, and none drawn is still in the bag. */
  lemma DrawManyDistinct(l: Lotto, k: nat)
    requires Distinct(l.numbers)
    ensures Distinct(DrawMany(l, k).0 + DrawMany(l, k).1.numbers)
    ensures Distinct(DrawMany(l, k).0)
    ensures |DrawMany(l, k).1.numbers| == |l.numbers| - |DrawMany(l, k).0|
  {
    var (drawn, rest) := DrawMany(l, k);
    assert multiset(drawn + rest.numbers) == multiset(l.numbers);
    DistinctPermutation(l.numbers, drawn + rest.numbers);
    DistinctPrefix(drawn, rest.numbers);
    assert |multiset(drawn + rest.numbers)| == |multiset(l.numbers)|;
  }

  lemma DistinctPrefix<T>(a: seq<T>, b: seq<T>)
    requires Distinct(a + b)
    ensures Distinct(a)
  {
    assert forall i :: 0 <= i < |a| ==> a[i] == (a + b)[i];
  }

  /** LOTTO_NUM draws from a fresh bag return every barrel 1..LOTTO_NUM exactly once, and every later draw returns None. */
  lemma FullDrawIsPermutation(maxNumber: int, shuffled: seq<int>)
    requires multiset(shuffled) == multiset(NumberRange())
    ensures |DrawMany(NewLotto(maxNumber, shuffled), LOTTO_NUM).0| == LOTTO_NUM
    ensures Distinct(DrawMany(NewLotto(maxNumber, shuffled), LOTTO_NUM).0)
    ensures multiset(DrawMany(NewLotto(maxNumber, shuffled), LOTTO_NUM).0) == multiset(NumberRange())
    ensures DrawMany(NewLotto(maxNumber, shuffled), LOTTO_NUM).1.numbers == []
    ensures Draw(DrawMany(NewLotto(maxNumber, shuffled), LOTTO_NUM).1).0.None?
  {
    var l := NewLotto(maxNumber, shuffled);
    DrawManyDistinct(l, LOTTO_NUM);
    var (drawn, rest) := DrawMany(l, LOTTO_NUM);
    assert |rest.numbers| == 0;
    assert multiset(rest.numbers) == multiset{};
  }

  /** Once the bag is empty, every further batch of draws yields nothing and leaves it empty. */
  lemma {:induction false} ExhaustedStaysExhausted(l: Lotto, k: nat)
    requires l.numbers == []
    ensures DrawMany(l, k) == ([], l)
    decreases k
  {
    if k > 0 {
      ExhaustedStaysExhausted(l, k - 1);
    }
  }
}

=== FILE: cards.dfy ===
/** A lotto card: a CARD_ROWS x CARD_COLS grid of blanks, numbers and crosses (class LottoCard). */
module Cards {
  import opened Wrappers
  import opened Constants
  import opened Seqs

  /** One cell: the BLANK value, an unmarked number, or the CROSS left by a strike. */
  datatype Cell = Blank | Num(n: int) | Cross

  /** The card's table, row by row (the DataFrame in the source). */
  type Grid = seq<seq<Cell>>

  /** A (row, column) position on a grid. */
  datatype Pos = Pos(row: nat, col: nat)

  /** A card: what is left of its number pool after generation, and its grid. */
  datatype LottoCard = LottoCard(numbers: seq<int>, grid: Grid)

  /** The three ways an explicit number list is rejected. */
  datatype CardError = TooFewNumbers | DuplicateNumbers | OutOfRange

  /** The two `random.sample` results for one row, before sorting: the row's numbers and its columns. */
  datatype RowPick = RowPick(numbers: seq<int>, columns: seq<int>)

  /** Elementwise `cell == barrel`: a blank holds BLANK and a cross is a string, never equal to a number. */
  predicate Matches(c: Cell, barrel: int)
  {
    match c
    case Blank => barrel == BLANK
    case Num(n) => n == barrel
    case Cross => false
  }

  /** For any real barrel, only the cell holding that very number matches: blanks and crosses never do. */
  lemma OnlyNumbersMatchBarrels(c: Cell, barrel: int)
    requires barrel in NumberRange()
    ensures Matches(c, barrel) <==> c == Num(barrel)
  {
    BlankOutsideRange();
  }

  /** The numbers of a row's unmarked cells, left to right. */
  function RowNumbers(row: seq<Cell>): seq<int>
    decreases |row|
  {
    if |row| == 0 then []
    else if row[0].Num? then [row[0].n] + RowNumbers(row[1..])
    else RowNumbers(row[1..])
  }

  /** The unmarked numbers of a grid in row-major order. */
  function GridNumbers(grid: Grid): seq<int>
    decreases |grid|
  {
    if |grid| == 0 then [] else RowNumbers(grid[0]) + GridNumbers(grid[1..])
  }

  /** Validation of the constructor's `numbers` argument (the pool rows are sampled from). */
  function InitialPool(numbers: Option<seq<int>>): (r: Result<seq<int>, CardError>)
    ensures numbers.None? ==> r == Ok(NumberRange())
    ensures numbers.Some? && |numbers.value| < NUMBERS_IN_CARD ==> r == Err(TooFewNumbers)
    ensures (numbers.Some? && |numbers.value| >= NUMBERS_IN_CARD && !Distinct(numbers.value))
            ==> r == Err(DuplicateNumbers)
    ensures (&& numbers.Some? && |numbers.value| >= NUMBERS_IN_CARD && Distinct(numbers.value)
             && (exists x :: x in numbers.value && !(1 <= x <= LOTTO_NUM)))
            ==> r == Err(OutOfRange)
    ensures numbers.Some? && r.Ok? ==> r.value == numbers.value
    ensures (&& numbers.Some? && |numbers.value| >= NUMBERS_IN_CARD && Distinct(numbers.value)
             && (forall x :: x in numbers.value ==> 1 <= x <= LOTTO_NUM))
            ==> r == Ok(numbers.value)
    ensures r.Ok? ==> |r.value| >= NUMBERS_IN_CARD && Distinct(r.value)
                      && forall x :: x in r.value ==> 1 <= x <= LOTTO_NUM
  {
    NumberRangeExact();
    match numbers
    case None => Ok(NumberRange())
    case Some(v) =>
      DistinctIffSetSize(v);
      if |v| < NUMBERS_IN_CARD then Err(TooFewNumbers)
      else if |ToSet(v)| != |v| then Err(DuplicateNumbers)
      else if !(forall x :: x in v ==> x in NumberRange()) then Err(OutOfRange)
      else Ok(v)
  }

  /** The dict update `{c: BLANK} | zip(cols, nums)` read off columns c..CARD_COLS-1, where cols[..i] and
      nums[..i] are already placed: a column takes the next number when it is that number's column. */
  function FillRow(c: nat, cols: seq<int>, nums: seq<int>, i: nat): (r: seq<Cell>)
    requires c <= CARD_COLS && |cols| == |nums| && i <= |cols|
    ensures |r| == CARD_COLS - c
    ensures forall j :: 0 <= j < |r| ==> r[j] != Cross
    decreases CARD_COLS - c
  {
    if c == CARD_COLS then []
    else if i < |cols| && cols[i] == c then [Num(nums[i])] + FillRow(c + 1, cols, nums, i + 1)
    else [Blank] + FillRow(c + 1, cols, nums, i)
  }

  /** The columns still to place are strictly ascending and lie in c..CARD_COLS-1. */
  predicate PendingColumns(c: nat, cols: seq<int>, i: nat)
    requires i <= |cols|
  {
    && (forall m :: i <= m < |cols| ==> c <= cols[m] < CARD_COLS)
    && (forall m, n :: i <= m < n < |cols| ==> cols[m] < cols[n])
  }

  /** Moving one column right keeps the pending columns valid, whether or not column c took a number. */
  lemma PendingColumnsStep(c: nat, cols: seq<int>, i: nat)
    requires i <= |cols| && PendingColumns(c, cols, i)
    ensures i < |cols| && cols[i] == c ==> PendingColumns(c + 1, cols, i + 1)
    ensures !(i < |cols| && cols[i] == c) ==> PendingColumns(c + 1, cols, i)
  {
    if i < |cols| && cols[i] == c {
      forall m | i + 1 <= m < |cols|
        ensures c + 1 <= cols[m]
      {
        assert cols[i] < cols[m];
      }
    }
  }

  /** Reading a filled row left to right gives back nums[i..] in order. */
  lemma {:induction false} FillRowNumbers(c: nat, cols: seq<int>, nums: seq<int>, i: nat)
    requires c <= CARD_COLS && |cols| == |nums| && i <= |cols| && PendingColumns(c, cols, i)
    ensures RowNumbers(FillRow(c, cols, nums, i)) == nums[i..]
    decreases CARD_COLS - c
  {
    var r := FillRow(c, cols, nums, i);
    assert i < |cols| ==> c <= cols[i] < CARD_COLS;
    if c < CARD_COLS {
      PendingColumnsStep(c, cols, i);
      if i < |cols| && cols[i] == c {
        var t := FillRow(c + 1, cols, nums, i + 1);
        FillRowNumbers(c + 1, cols, nums, i + 1);
        assert r[1..] == t;
        assert nums[i..] == [nums[i]] + nums[i + 1..];
      } else {
        var t := FillRow(c + 1, cols, nums, i);
        FillRowNumbers(c + 1, cols, nums, i);
        assert r[1..] == t;
      }
    }
  }

  /** Column cols[k] of a filled row holds nums[k]. */
  lemma {:induction false} FillRowNumberCell(c: nat, cols: seq<int>, nums: seq<int>, i: nat, k: nat)
    requires c <= CARD_COLS && |cols| == |nums| && i <= k < |cols| && PendingColumns(c, cols, i)
    ensures FillRow(c, cols, nums, i)[cols[k] - c] == Num(nums[k])
    decreases CARD_COLS - c
  {
    var r := FillRow(c, cols, nums, i);
    var j := cols[k] - c;
    if cols[i] == c && k == i {
      assert r[0] == Num(nums[i]);
    } else {
      PendingColumnsStep(c, cols, i);
      var i' := if cols[i] == c then i + 1 else i;
      var t := FillRow(c + 1, cols, nums, i');
      assert r == [r[0]] + t;
      assert k > i ==> cols[i] < cols[k];
      assert 0 < j;
      FillRowNumberCell(c + 1, cols, nums, i', k);
      assert r[j] == t[j - 1];
    }
  }

  /** A column that is not among cols stays blank. */
  lemma {:induction false} FillRowBlankCell(c: nat, cols: seq<int>, nums: seq<int>, i: nat, j: nat)
    requires c <= CARD_COLS && |cols| == |nums| && i <= |cols|
    requires j < CARD_COLS - c && (c + j) !in cols
    ensures FillRow(c, cols, nums, i)[j] == Blank
    decreases CARD_COLS - c
  {
    var r := FillRow(c, cols, nums, i);
    var i' := if i < |cols| && cols[i] == c then i + 1 else i;
    var t := FillRow(c + 1, cols, nums, i');
    assert r == [r[0]] + t;
    if j > 0 {
      FillRowBlankCell(c + 1, cols, nums, i', j - 1);
      assert r[j] == t[j - 1];
    }
  }

  /** A card row: column cols[k] holds nums[k], every other column is blank. */
  function BuildRow(cols: seq<int>, nums: seq<int>): (r: seq<Cell>)
    requires |cols| == |nums| && Increasing(cols)
    requires forall k :: 0 <= k < |cols| ==> 0 <= cols[k] < CARD_COLS
    ensures |r| == CARD_COLS
    ensures RowNumbers(r) == nums
    ensures forall j :: 0 <= j < |r| ==> r[j] != Cross
  {
    assert PendingColumns(0, cols, 0);
    FillRowNumbers(0, cols, nums, 0);
    assert nums[0..] == nums;
    FillRow(0, cols, nums, 0)
  }

  /** The row is the dict `{c: BLANK for c in range(CARD_COLS)} | dict(zip(cols, nums))`:
      column cols[k] holds nums[k] and every other column is blank. */
  lemma BuildRowCells(cols: seq<int>, nums: seq<int>)
    requires |cols| == |nums| && Increasing(cols)
    requires forall k :: 0 <= k < |cols| ==> 0 <= cols[k] < CARD_COLS
    ensures forall k :: 0 <= k < |cols| ==> BuildRow(cols, nums)[cols[k]] == Num(nums[k])
    ensures forall j :: 0 <= j < CARD_COLS && j !in cols ==> BuildRow(cols, nums)[j] == Blank
  {
    var r := BuildRow(cols, nums);
    assert r == FillRow(0, cols, nums, 0);
    assert PendingColumns(0, cols, 0);
    forall k | 0 <= k < |cols|
      ensures r[cols[k]] == Num(nums[k])
    {
      FillRowNumberCell(0, cols, nums, 0, k);
    }
    forall j | 0 <= j < CARD_COLS && j !in cols
      ensures r[j] == Blank
    {
      FillRowBlankCell(0, cols, nums, 0, j);
    }
  }

  /** One row's samples are what `random.sample` can return from the pool and from range(CARD_COLS). */
  predicate ValidPick(pool: seq<int>, p: RowPick)
  {
    && |p.numbers| == NUMBERS_PER_ROW && Distinct(p.numbers)
    && (forall x :: x in p.numbers ==> x in pool)
    && |p.columns| == NUMBERS_PER_ROW && Distinct(p.columns)
    && (forall c :: c in p.columns ==> 0 <= c < CARD_COLS)
  }

  /** Every row's samples are valid for the pool left after the earlier rows removed theirs. */
  predicate ValidPicks(pool: seq<int>, picks: seq<RowPick>)
    decreases |picks|
  {
    |picks| == 0 || (ValidPick(pool, picks[0]) && ValidPicks(Without(pool, picks[0].numbers), picks[1..]))
  }

  /** A generated row: CARD_COLS cells, no cross, NUMBERS_PER_ROW numbers strictly ascending left to right. */
  predicate WellFormedRow(row: seq<Cell>)
  {
    && |row| == CARD_COLS
    && (forall c :: 0 <= c < |row| ==> row[c] != Cross)
    && |RowNumbers(row)| == NUMBERS_PER_ROW
    && Increasing(RowNumbers(row))
  }

  /** The number of blank cells in a row. */
  function BlankCount(row: seq<Cell>): nat
    decreases |row|
  {
    if |row| == 0 then 0
    else (if row[0] == Blank then 1 else 0) + BlankCount(row[1..])
  }

  /** A row without crosses splits into its numbers and its blanks. */
  lemma {:induction false} CellsAreNumbersOrBlanks(row: seq<Cell>)
    requires forall c :: 0 <= c < |row| ==> row[c] != Cross
    ensures |RowNumbers(row)| + BlankCount(row) == |row|
    decreases |row|
  {
    if |row| > 0 {
      CellsAreNumbersOrBlanks(row[1..]);
    }
  }

  /** A well-formed row has 5 numbers and 4 blanks. */
  lemma WellFormedRowBlanks(row: seq<Cell>)
    requires WellFormedRow(row)
    ensures BlankCount(row) == CARD_COLS - NUMBERS_PER_ROW
  {
    CellsAreNumbersOrBlanks(row);
  }

  lemma GridNumbersCons(row: seq<Cell>, rows: Grid)
    ensures GridNumbers([row] + rows) == RowNumbers(row) + GridNumbers(rows)
  {
    assert ([row] + rows)[1..] == rows;
  }

  /** After the first row's sorted numbers leave the pool, the remaining samples are valid for what is left. */
  lemma ValidPicksTail(pool: seq<int>, picks: seq<RowPick>)
    requires Distinct(pool) && |picks| > 0 && ValidPicks(pool, picks)
    ensures Distinct(Without(pool, Sort(picks[0].numbers)))
    ensures |Without(pool, Sort(picks[0].numbers))| == |pool| - NUMBERS_PER_ROW
    ensures ValidPicks(Without(pool, Sort(picks[0].numbers)), picks[1..])
  {
    var nums := picks[0].numbers;
    var sorted := Sort(nums);
    assert ValidPick(pool, picks[0]);
    SortDistinct(nums);
    assert forall x :: x in sorted <==> x in nums;
    WithoutSameMembers(pool, sorted, nums);
    WithoutLength(pool, sorted);
  }

  /** Adding one generated row in front of the later rows keeps the card facts. */
  lemma CreateRowsStep(pool: seq<int>, row: seq<Cell>, rest: seq<int>, rows: Grid, left: seq<int>, n: nat)
    requires Distinct(pool) && WellFormedRow(row)
    requires forall x :: x in RowNumbers(row) ==> x in pool
    requires forall x :: x in rest <==> x in pool && x !in RowNumbers(row)
    requires |rest| == |pool| - NUMBERS_PER_ROW
    requires forall r :: 0 <= r < |rows| ==> WellFormedRow(rows[r])
    requires |GridNumbers(rows)| == NUMBERS_PER_ROW * n
    requires Distinct(GridNumbers(rows))
    requires forall x :: x in GridNumbers(rows) ==> x in rest
    requires forall x :: x in left <==> x in rest && x !in GridNumbers(rows)
    requires |left| == |rest| - NUMBERS_PER_ROW * n
    ensures forall r :: 0 <= r < |[row] + rows| ==> WellFormedRow(([row] + rows)[r])
    ensures |GridNumbers([row] + rows)| == NUMBERS_PER_ROW * (n + 1)
    ensures Distinct(GridNumbers([row] + rows))
    ensures forall x :: x in GridNumbers([row] + rows) ==> x in pool
    ensures forall x :: x in left <==> x in pool && x !in GridNumbers([row] + rows)
    ensures |left| == |pool| - NUMBERS_PER_ROW * (n + 1)
  {
    GridNumbersCons(row, rows);
    var nums := RowNumbers(row);
    assert Increasing(nums);
    AscendingIncreasingDistinct(nums);
    forall x | x in nums
      ensures x !in GridNumbers(rows)
    {
      assert x !in rest;
    }
    DistinctConcat(nums, GridNumbers(rows));
    forall r | 0 <= r < |[row] + rows|
      ensures WellFormedRow(([row] + rows)[r])
    {
      if r > 0 {
        assert ([row] + rows)[r] == rows[r - 1];
      }
    }
  }

  /** One pass of the row loop of `_create_card`: the sampled numbers, sorted, go into the sampled columns,
      sorted, so the row reads its numbers in ascending order left to right. */
  function PickRow(p: RowPick): (row: seq<Cell>)
    requires |p.numbers| == NUMBERS_PER_ROW && Distinct(p.numbers)
    requires |p.columns| == NUMBERS_PER_ROW && Distinct(p.columns)
    requires forall c :: c in p.columns ==> 0 <= c < CARD_COLS
    ensures WellFormedRow(row)
    ensures RowNumbers(row) == Sort(p.numbers)
    ensures forall x :: x in RowNumbers(row) <==> x in p.numbers
  {
    var rowNumbers := Sort(p.numbers);
    var rowIndices := Sort(p.columns);
    SortDistinct(p.numbers);
    SortDistinct(p.columns);
    assert forall k :: 0 <= k < |rowIndices| ==> rowIndices[k] in p.columns;
    BuildRow(rowIndices, rowNumbers)
  }

  /** `card_dict.update(zip(row_indices, row_numbers))` on a generated row: the k-th smallest sampled
      number sits in the k-th smallest sampled column, and every column that was not sampled stays blank. */
  lemma PickRowCells(p: RowPick)
    requires |p.numbers| == NUMBERS_PER_ROW && Distinct(p.numbers)
    requires |p.columns| == NUMBERS_PER_ROW && Distinct(p.columns)
    requires forall c :: c in p.columns ==> 0 <= c < CARD_COLS
    ensures |Sort(p.columns)| == |Sort(p.numbers)| == NUMBERS_PER_ROW
    ensures forall k :: 0 <= k < NUMBERS_PER_ROW ==> Sort(p.columns)[k] in p.columns
    ensures forall k :: 0 <= k < NUMBERS_PER_ROW ==> PickRow(p)[Sort(p.columns)[k]] == Num(Sort(p.numbers)[k])
    ensures forall j :: 0 <= j < CARD_COLS ==> (PickRow(p)[j] == Blank <==> j !in p.columns)
  {
    SortDistinct(p.numbers);
    SortDistinct(p.columns);
    assert forall k :: 0 <= k < |Sort(p.columns)| ==> Sort(p.columns)[k] in p.columns;
    BuildRowCells(Sort(p.columns), Sort(p.numbers));
    forall j | 0 <= j < CARD_COLS && j in p.columns
      ensures PickRow(p)[j] != Blank
    {
      assert j in Sort(p.columns);
      var k :| 0 <= k < |Sort(p.columns)| && Sort(p.columns)[k] == j;
    }
  }

  /** The row is the one its samples describe: it reads the sorted sampled numbers, and its blank cells are
      exactly the columns that were not sampled. */
  predicate RowFollows(row: seq<Cell>, p: RowPick)
  {
    && |row| == CARD_COLS
    && RowNumbers(row) == Sort(p.numbers)
    && forall j :: 0 <= j < CARD_COLS ==> (row[j] == Blank <==> j !in p.columns)
  }

  /** Each row of the grid is the one its samples describe. */
  predicate FollowsPicks(grid: Grid, picks: seq<RowPick>)
  {
    |grid| == |picks| && forall i :: 0 <= i < |grid| ==> RowFollows(grid[i], picks[i])
  }

  /** The loop of `_create_card`: build one row per pick, removing its numbers from the pool. */
  function CreateRows(pool: seq<int>, picks: seq<RowPick>): (res: (Grid, seq<int>))
    requires Distinct(pool) && ValidPicks(pool, picks)
    ensures |res.0| == |picks|
    ensures forall r :: 0 <= r < |res.0| ==> WellFormedRow(res.0[r])
    ensures |GridNumbers(res.0)| == NUMBERS_PER_ROW * |picks|
    ensures Distinct(GridNumbers(res.0))
    ensures forall x :: x in GridNumbers(res.0) ==> x in pool
    ensures forall x :: x in res.1 <==> x in pool && x !in GridNumbers(res.0)
    ensures Distinct(res.1) && |res.1| == |pool| - NUMBERS_PER_ROW * |picks|
    decreases |picks|
  {
    if |picks| == 0 then
      ([], pool)
    else
      assert ValidPick(pool, picks[0]);
      var row := PickRow(picks[0]);
      var rest := Without(pool, Sort(picks[0].numbers));
      ValidPicksTail(pool, picks);
      var (rows, left) := CreateRows(rest, picks[1..]);
      CreateRowsStep(pool, row, rest, rows, left, |picks| - 1);
      ([row] + rows, left)
  }

  /** Row i of the generated grid is built from picks[i]. */
  lemma {:induction false} CreateRowsRowFollows(pool: seq<int>, picks: seq<RowPick>, i: nat)
    requires Distinct(pool) && ValidPicks(pool, picks) && i < |picks|
    ensures RowFollows(CreateRows(pool, picks).0[i], picks[i])
    decreases i
  {
    assert ValidPick(pool, picks[0]);
    var rest := Without(pool, Sort(picks[0].numbers));
    ValidPicksTail(pool, picks);
    var grid := CreateRows(pool, picks).0;
    assert grid == [PickRow(picks[0])] + CreateRows(rest, picks[1..]).0;
    if i == 0 {
      PickRowCells(picks[0]);
    } else {
      CreateRowsRowFollows(rest, picks[1..], i - 1);
      assert grid[i] == CreateRows(rest, picks[1..]).0[i - 1];
      assert picks[i] == picks[1..][i - 1];
    }
  }

  /** The generated grid follows the samples row by row. */
  lemma CreateRowsFollowsPicks(pool: seq<int>, picks: seq<RowPick>)
    requires Distinct(pool) && ValidPicks(pool, picks)
    ensures FollowsPicks(CreateRows(pool, picks).0, picks)
  {
    forall i | 0 <= i < |picks|
      ensures RowFollows(CreateRows(pool, picks).0[i], picks[i])
    {
      CreateRowsRowFollows(pool, picks, i);
    }
  }

  /** `_create_card` on a pool: CARD_ROWS well-formed rows, all numbers distinct and from the pool. */
  function CreateCard(pool: seq<int>, picks: seq<RowPick>): (card: LottoCard)
    requires Distinct(pool) && |picks| == CARD_ROWS && ValidPicks(pool, picks)
    ensures |card.grid| == CARD_ROWS
    ensures FollowsPicks(card.grid, picks)
    ensures forall r :: 0 <= r < CARD_ROWS ==> WellFormedRow(card.grid[r])
    ensures |GridNumbers(card.grid)| == NUMBERS_IN_CARD && Distinct(GridNumbers(card.grid))
    ensures forall x :: x in GridNumbers(card.grid) ==> x in pool
    ensures forall x :: x in card.numbers <==> x in pool && x !in GridNumbers(card.grid)
    ensures |card.numbers| == |pool| - NUMBERS_IN_CARD
  {
    var (grid, left) := CreateRows(pool, picks);
    CreateRowsFollowsPicks(pool, picks);
    LottoCard(left, grid)
  }

  /** `LottoCard(numbers)`: validate the argument, then generate the grid. */
  function NewCard(numbers: Option<seq<int>>, picks: seq<RowPick>): (r: Result<LottoCard, CardError>)
    requires |picks| == CARD_ROWS
    requires InitialPool(numbers).Ok? ==> ValidPicks(InitialPool(numbers).value, picks)
    ensures r.Err? <==> InitialPool(numbers).Err?
    ensures r.Err? ==> r.error == InitialPool(numbers).error
    ensures r.Ok? ==> |r.value.grid| == CARD_ROWS
                      && (forall i :: 0 <= i < CARD_ROWS ==> WellFormedRow(r.value.grid[i]))
                      && |GridNumbers(r.value.grid)| == NUMBERS_IN_CARD
                      && Distinct(GridNumbers(r.value.grid))
                      && (forall x :: x in GridNumbers(r.value.grid) ==> 1 <= x <= LOTTO_NUM)
                      && (numbers.Some? ==> forall x :: x in GridNumbers(r.value.grid) ==> x in numbers.value)
    ensures r.Ok? ==> FollowsPicks(r.value.grid, picks)
  {
    match InitialPool(numbers)
    case Err(e) => Err(e)
    case Ok(pool) => Ok(CreateCard(pool, picks))
  }

  /** Deterministic samples: the first NUMBERS_PER_ROW numbers of the remaining pool, columns 0..NUMBERS_PER_ROW-1. */
  function FirstPicks(pool: seq<int>, rows: nat): seq<RowPick>
    decreases rows
  {
    if rows == 0 || |pool| < NUMBERS_PER_ROW then []
    else
      var nums := pool[..NUMBERS_PER_ROW];
      [RowPick(nums, seq(NUMBERS_PER_ROW, i => i))] + FirstPicks(Without(pool, nums), rows - 1)
  }

  /** Card geometry is feasible: a pool of NUMBERS_PER_ROW * rows distinct numbers always admits valid samples. */
  lemma {:induction false} FirstPicksValid(pool: seq<int>, rows: nat)
    requires Distinct(pool) && |pool| >= NUMBERS_PER_ROW * rows
    ensures |FirstPicks(pool, rows)| == rows
    ensures ValidPicks(pool, FirstPicks(pool, rows))
    decreases rows
  {
    if rows > 0 {
      var nums := pool[..NUMBERS_PER_ROW];
      assert Distinct(nums);
      assert forall x :: x in nums ==> x in pool;
      WithoutLength(pool, nums);
      FirstPicksValid(Without(pool, nums), rows - 1);
      var picks := FirstPicks(pool, rows);
      assert picks[1..] == FirstPicks(Without(pool, nums), rows - 1);
      assert ValidPick(pool, picks[0]);
    }
  }

  /** Every argument that passes validation yields a card for some choice of random samples. */
  lemma ValidatedPoolAdmitsCard(numbers: Option<seq<int>>)
    requires InitialPool(numbers).Ok?
    ensures exists picks :: |picks| == CARD_ROWS && ValidPicks(InitialPool(numbers).value, picks)
  {
    FirstPicksValid(InitialPool(numbers).value, CARD_ROWS);
  }

  /** First matching column of a row, scanning left to right. */
  function FindInRow(row: seq<Cell>, barrel: int): (r: Option<nat>)
    ensures r.Some? ==> r.value < |row| && Matches(row[r.value], barrel)
                        && forall j :: 0 <= j < r.value ==> !Matches(row[j], barrel)
    ensures r.None? ==> forall j :: 0 <= j < |row| ==> !Matches(row[j], barrel)
    decreases |row|
  {
    if |row| == 0 then None
    else if Matches(row[0], barrel) then Some(0)
    else
      match FindInRow(row[1..], barrel)
      case Some(j) => Some(j + 1)
      case None =>
        assert forall j :: 1 <= j < |row| ==> row[j] == row[1..][j - 1];
        None
  }

  /** `check_barrel`: `np.where(card == barrel)` reduced to its first hit, the first matching position in
      row-major order. */
  function Locate(grid: Grid, barrel: int): (r: Option<Pos>)
    ensures r.Some? ==> r.value.row < |grid| && r.value.col < |grid[r.value.row]|
                        && Matches(grid[r.value.row][r.value.col], barrel)
    ensures r.Some? ==> forall i, j :: 0 <= i < r.value.row && 0 <= j < |grid[i]| ==> !Matches(grid[i][j], barrel)
    ensures r.Some? ==> forall j :: 0 <= j < r.value.col ==> !Matches(grid[r.value.row][j], barrel)
    ensures r.None? ==> forall i, j :: 0 <= i < |grid| && 0 <= j < |grid[i]| ==> !Matches(grid[i][j], barrel)
    decreases |grid|
  {
    if |grid| == 0 then None
    else
      match FindInRow(grid[0], barrel)
      case Some(c) => Some(Pos(0, c))
      case None =>
        assert forall i :: 1 <= i < |grid| ==> grid[i] == grid[1..][i - 1];
        match Locate(grid[1..], barrel)
        case Some(p) => Some(Pos(p.row + 1, p.col))
        case None => None
  }

  /** The position exists on the grid. */
  predicate InGrid(grid: Grid, p: Pos)
  {
    p.row < |grid| && p.col < |grid[p.row]|
  }

  /** `card.iat[row, col] = CROSS`: the one cell becomes a cross, nothing else changes. */
  function CrossOut(grid: Grid, p: Pos): (r: Grid)
    requires InGrid(grid, p)
    ensures |r| == |grid|
    ensures forall i :: 0 <= i < |grid| ==> |r[i]| == |grid[i]|
    ensures r[p.row][p.col] == Cross
    ensures forall i, j :: 0 <= i < |grid| && 0 <= j < |grid[i]| && (i != p.row || j != p.col) ==> r[i][j] == grid[i][j]
  {
    grid[p.row := grid[p.row][p.col := Cross]]
  }

  lemma {:induction false} RowCrossOutNumbers(row: seq<Cell>, j: nat)
    requires j < |row|
    ensures row[j].Num? ==> multiset(RowNumbers(row[j := Cross])) + multiset{row[j].n} == multiset(RowNumbers(row))
    ensures !row[j].Num? ==> RowNumbers(row[j := Cross]) == RowNumbers(row)
    decreases |row|
  {
    var row' := row[j := Cross];
    if j == 0 {
      assert row'[1..] == row[1..];
    } else {
      assert row'[1..] == row[1..][j - 1 := Cross];
      RowCrossOutNumbers(row[1..], j - 1);
    }
  }

  /** Crossing out a number cell removes exactly that number from the card; crossing anything else removes none. */
  lemma {:induction false} CrossOutNumbers(grid: Grid, p: Pos)
    requires InGrid(grid, p)
    ensures grid[p.row][p.col].Num? ==>
              multiset(GridNumbers(CrossOut(grid, p))) + multiset{grid[p.row][p.col].n} == multiset(GridNumbers(grid))
    ensures grid[p.row][p.col].Num? ==> |GridNumbers(CrossOut(grid, p))| == |GridNumbers(grid)| - 1
    ensures !grid[p.row][p.col].Num? ==> GridNumbers(CrossOut(grid, p)) == GridNumbers(grid)
    decreases |grid|
  {
    var g' := CrossOut(grid, p);
    if p.row == 0 {
      assert g'[1..] == grid[1..];
      RowCrossOutNumbers(grid[0], p.col);
    } else {
      assert g'[1..] == CrossOut(grid[1..], Pos(p.row - 1, p.col));
      CrossOutNumbers(grid[1..], Pos(p.row - 1, p.col));
    }
    if grid[p.row][p.col].Num? {
      assert |multiset(GridNumbers(g'))| + 1 == |multiset(GridNumbers(grid))|;
    }
  }

  /** A barrel not on the card stays not found after any cell is crossed out. */
  lemma LocateMissStaysMiss(grid: Grid, p: Pos, barrel: int)
    requires InGrid(grid, p) && Locate(grid, barrel).None?
    ensures Locate(CrossOut(grid, p), barrel).None?
  {
  }
}

=== FILE: constants.dfy ===
/** The game constants and the closed set of turn statuses (constants.py). */
module Constants {

  /** The highest barrel number. */
  const LOTTO_NUM: nat := 90
  /** Rows on a card. */
  const CARD_ROWS: nat := 3
  /** Columns on a card. */
  const CARD_COLS: nat := 9
  /** Populated cells in every row. */
  const NUMBERS_PER_ROW: nat := 5
  /** The value a blank cell holds. */
  const BLANK: int := 0
  /** Populated cells on a whole card; the number of strikes that wins. */
  const NUMBERS_IN_CARD: nat := CARD_ROWS * NUMBERS_PER_ROW

  /** Outcome of one player's turn. Only compared for equality. */
  datatype GameStatus = NextMove | Win | Loose

  /** The barrel numbers 1..LOTTO_NUM in ascending order. */
  function NumberRange(): seq<int>
  {
    seq(LOTTO_NUM, i => i + 1)
  }

  /** The range is exactly 1..LOTTO_NUM, strictly ascending, hence without duplicates. */
  lemma NumberRangeExact()
    ensures |NumberRange()| == LOTTO_NUM
    ensures forall x :: x in NumberRange() <==> 1 <= x <= LOTTO_NUM
    ensures forall i, j :: 0 <= i < j < |NumberRange()| ==> NumberRange()[i] < NumberRange()[j]
  {
    forall x | 1 <= x <= LOTTO_NUM
      ensures x in NumberRange()
    {
      assert NumberRange()[x - 1] == x;
    }
  }

  /** A blank cell's value is never a barrel number. */
  lemma BlankOutsideRange()
    ensures BLANK !in NumberRange()
  {
    NumberRangeExact();
  }

  /** The three statuses are pairwise distinct and there is no fourth. */
  lemma GameStatusClosed(s: GameStatus)
    ensures s == NextMove || s == Win || s == Loose
    ensures NextMove != Win && Win != Loose && Loose != NextMove
  {
  }
}

=== FILE: players.dfy ===
/** A player: a card, a move history, and a human or robot decision maker (class Player). */
module Players {
  import opened Wrappers
  import opened Constants
  import opened Seqs
  import opened Cards

  /** `moves` holds the struck positions in order (the source keeps rows and columns in two parallel lists). */
  datatype Player = Player(name: string, isHuman: bool, card: LottoCard, moves: seq<Pos>)

  /** `Player(name, is_human, card)`: a given card is used as is; without one a card is generated from the
      full number range with the samples `picks`. A new player has struck nothing yet. */
  function NewPlayer(name: string, isHuman: bool, card: Option<LottoCard>, picks: seq<RowPick>): (p: Player)
    requires card.None? ==> |picks| == CARD_ROWS && ValidPicks(NumberRange(), picks)
    ensures p.name == name && p.isHuman == isHuman && p.moves == []
    ensures card.Some? ==> p.card == card.value
    ensures card.None? ==> Consistent(p) && |p.card.grid| == CARD_ROWS
                           && forall x :: x in GridNumbers(p.card.grid) ==> 1 <= x <= LOTTO_NUM
    ensures card.None? ==> && (forall i :: 0 <= i < CARD_ROWS ==> WellFormedRow(p.card.grid[i]))
                           && |GridNumbers(p.card.grid)| == NUMBERS_IN_CARD && Distinct(GridNumbers(p.card.grid))
                           && FollowsPicks(p.card.grid, picks)
  {
    match card
    case Some(c) => Player(name, isHuman, c, [])
    case None =>
      NumberRangeExact();
      AscendingIncreasingDistinct(NumberRange());
      Player(name, isHuman, CreateCard(NumberRange(), picks), [])
  }

  /** A player's bookkeeping is consistent: every move is a crossed cell, and moves plus
      remaining numbers make up a full card. */
  ghost predicate Consistent(p: Player)
  {
    && |GridNumbers(p.card.grid)| + |p.moves| == NUMBERS_IN_CARD
    && forall k :: 0 <= k < |p.moves| ==>
         InGrid(p.card.grid, p.moves[k]) && p.card.grid[p.moves[k].row][p.moves[k].col] == Cross
  }

  /** `update_moves_list`: record the move, cross the cell, and report WIN once NUMBERS_IN_CARD moves are made. */
  function UpdateMoves(p: Player, pos: Pos, barrel: int): (res: (Player, GameStatus))
    requires InGrid(p.card.grid, pos)
    ensures res.0.name == p.name && res.0.isHuman == p.isHuman && res.0.card.numbers == p.card.numbers
    ensures res.0.moves == p.moves + [pos]
    ensures res.0.card.grid == CrossOut(p.card.grid, pos)
    ensures res.1 != Loose
    ensures res.1 == Win <==> |res.0.moves| >= NUMBERS_IN_CARD
  {
    var moves := p.moves + [pos];
    var p' := p.(moves := moves, card := p.card.(grid := CrossOut(p.card.grid, pos)));
    if |moves| < NUMBERS_IN_CARD then (p', NextMove) else (p', Win)
  }

  /** Striking a number cell keeps the bookkeeping consistent, and WIN means the whole card is crossed out. */
  lemma UpdateMovesConsistent(p: Player, pos: Pos, barrel: int)
    requires Consistent(p) && InGrid(p.card.grid, pos) && p.card.grid[pos.row][pos.col].Num?
    ensures Consistent(UpdateMoves(p, pos, barrel).0)
    ensures |UpdateMoves(p, pos, barrel).0.moves| <= NUMBERS_IN_CARD
    ensures UpdateMoves(p, pos, barrel).1 == Win <==> GridNumbers(UpdateMoves(p, pos, barrel).0.card.grid) == []
  {
    CrossOutNumbers(p.card.grid, pos);
    var p' := UpdateMoves(p, pos, barrel).0;
    forall k | 0 <= k < |p'.moves|
      ensures InGrid(p'.card.grid, p'.moves[k]) && p'.card.grid[p'.moves[k].row][p'.moves[k].col] == Cross
    {
      if k < |p.moves| {
        assert p'.moves[k] == p.moves[k];
      }
    }
  }

  /** The decision that is resolved: a human's own answer; a robot's correct answer, inverted when it errs. */
  function Decision(isHuman: bool, strikeOut: bool, erred: bool, onCard: bool): (strike: bool)
    ensures isHuman ==> (strike <==> strikeOut)
    ensures !isHuman ==> (strike == onCard <==> !erred)
  {
    if isHuman then strikeOut
    else if !erred then onCard
    else !onCard
  }

  /** `check_move`: resolve one decision against the card.
      `erred` stands for `random.random() <= mistake_rate` and is only consulted for robots. */
  function CheckMove(p: Player, strikeOut: bool, erred: bool, barrel: int): (res: (Player, GameStatus))
    ensures res.0.name == p.name && res.0.isHuman == p.isHuman && p.moves <= res.0.moves
    ensures res.1 == Win ==> |res.0.moves| >= NUMBERS_IN_CARD
    ensures var onCard := Locate(p.card.grid, barrel).Some?;
            var strike := Decision(p.isHuman, strikeOut, erred, onCard);
            && (res.1 == Loose <==> strike != onCard)
            && (!onCard && !strike ==> res.1 == NextMove)
            && (!(onCard && strike) ==> res.0 == p)
            && (onCard && strike ==>
                  var pos := Locate(p.card.grid, barrel).value;
                  && res.0.moves == p.moves + [pos]
                  && res.0.card.grid == CrossOut(p.card.grid, pos)
                  && (res.1 == Win <==> |res.0.moves| >= NUMBERS_IN_CARD))
  {
    var found := Locate(p.card.grid, barrel);
    var onCard := found.Some?;
    var strike := Decision(p.isHuman, strikeOut, erred, onCard);
    if onCard && strike then UpdateMoves(p, found.value, barrel)
    else if !onCard && !strike then (p, NextMove)
    else (p, Loose)
  }

  /** A robot never looks at the passed decision. */
  lemma RobotIgnoresStrikeOut(p: Player, s1: bool, s2: bool, erred: bool, barrel: int)
    requires !p.isHuman
    ensures CheckMove(p, s1, erred, barrel) == CheckMove(p, s2, erred, barrel)
  {
  }

  /** A human is never subject to the mistake coin. */
  lemma HumanIgnoresMistake(p: Player, strikeOut: bool, barrel: int)
    requires p.isHuman
    ensures CheckMove(p, strikeOut, false, barrel) == CheckMove(p, strikeOut, true, barrel)
  {
  }

  /** A robot that does not err is never eliminated; one that errs always is, and nothing on it changes. */
  lemma RobotOutcome(p: Player, strikeOut: bool, erred: bool, barrel: int)
    requires !p.isHuman
    ensures !erred ==> CheckMove(p, strikeOut, erred, barrel).1 != Loose
    ensures erred ==> CheckMove(p, strikeOut, erred, barrel) == (p, Loose)
  {
  }

  /** A turn keeps the bookkeeping consistent for any real barrel, moves never exceed NUMBERS_IN_CARD,
      and a WIN always comes with a fully crossed card. */
  lemma CheckMoveConsistent(p: Player, strikeOut: bool, erred: bool, barrel: int)
    requires Consistent(p) && barrel != BLANK
    ensures Consistent(CheckMove(p, strikeOut, erred, barrel).0)
    ensures |CheckMove(p, strikeOut, erred, barrel).0.moves| <= NUMBERS_IN_CARD
    ensures CheckMove(p, strikeOut, erred, barrel).1 == Win ==> GridNumbers(CheckMove(p, strikeOut, erred, barrel).0.card.grid) == []
  {
    var found := Locate(p.card.grid, barrel);
    if found.Some? {
      var pos := found.value;
      assert Matches(p.card.grid[pos.row][pos.col], barrel);
      UpdateMovesConsistent(p, pos, barrel);
    }
  }

  /** A barrel not on the card, correctly skipped, changes nothing. */
  lemma CorrectSkipChangesNothing(p: Player, strikeOut: bool, erred: bool, barrel: int)
    requires Locate(p.card.grid, barrel).None?
    requires p.isHuman ==> !strikeOut
    requires !p.isHuman ==> !erred
    ensures CheckMove(p, strikeOut, erred, barrel) == (p, NextMove)
  {
  }
}

=== FILE: rounds.dfy ===
/** One round of play (class PlayRound): draw barrels and offer each to the players still in the game. */
module Rounds {
  import opened Wrappers
  import opened Constants
  import opened Seqs
  import opened Cards
  import opened Barrels
  import opened Players

  /** What the outside world supplies for one player's turn: a human's yes/no answer, and whether a robot's
      mistake coin came up (`random.random() <= mistake_rate`). Each is ignored for the other kind of player. */
  datatype Turn = Turn(answer: bool, erred: bool)

  /** The round's state. Players are referred to by their index in `players`, which keeps every player's final
      card and moves; `roster` lists the indices still in the game, in turn order; `moveNum` counts draws. */
  datatype Round = Round(players: seq<Player>, roster: seq<nat>, lotto: Lotto, moveNum: nat)

  /** How a round ends: a completed card, the last player left, nobody left, or an empty bag. */
  datatype Outcome = Won(winner: nat) | LastStanding(survivor: nat) | NoneLeft | Exhausted

  /** The result of offering one barrel to the players: play on, or the round is over. */
  datatype Step = Continue(round: Round) | Stop(outcome: Outcome, round: Round)

  /** The only construction error of a round. */
  datatype RoundError = BadPlayerCount

  /** Every roster entry names a player, and none appears twice. */
  predicate RosterValid(r: Round)
  {
    Distinct(r.roster) && forall id :: id in r.roster ==> id < |r.players|
  }

  /** The bag holds real barrels only. */
  predicate BagValid(l: Lotto)
  {
    forall x :: x in l.numbers ==> 1 <= x <= LOTTO_NUM
  }

  /** What any stretch of play preserves: the same players, a roster that only loses entries, names and kinds
      unchanged, and move histories that only grow. */
  predicate Evolves(r: Round, r': Round)
  {
    && |r'.players| == |r.players| && RosterValid(r')
    && (forall id :: id in r'.roster ==> id in r.roster)
    && |r'.roster| <= |r.roster|
    && (forall i :: 0 <= i < |r.players| ==>
          && r'.players[i].name == r.players[i].name
          && r'.players[i].isHuman == r.players[i].isHuman
          && r.players[i].moves <= r'.players[i].moves)
  }

  lemma EvolvesTransitive(a: Round, b: Round, c: Round)
    requires Evolves(a, b) && Evolves(b, c)
    ensures Evolves(a, c)
  {
  }

  /** Replacing one player by a later state of the same player is a step of play. */
  lemma ReplacePlayerEvolves(r: Round, id: nat, p': Player)
    requires RosterValid(r) && id < |r.players|
    requires p'.name == r.players[id].name && p'.isHuman == r.players[id].isHuman
    requires r.players[id].moves <= p'.moves
    ensures Evolves(r, r.(players := r.players[id := p']))
  {
  }

  /** Dropping a player from the roster is a step of play. */
  lemma DropPlayerEvolves(r: Round, id: nat)
    requires RosterValid(r) && id in r.roster
    ensures Evolves(r, r.(roster := RemoveFirst(r.roster, id)))
  {
  }

  /** The indices 0..n-1 in order. */
  function Indices(n: nat): (s: seq<nat>)
    ensures |s| == n && forall i :: 0 <= i < n ==> s[i] == i
  {
    seq(n, i => i)
  }

  /** `PlayRound(*players)`: between two and five players, a freshly shuffled bag, no draws yet. */
  function NewRound(players: seq<Player>, shuffled: seq<int>): (res: Result<Round, RoundError>)
    requires multiset(shuffled) == multiset(NumberRange())
    ensures res.Err? <==> !(2 <= |players| <= 5)
    ensures res.Ok? ==> && res.value.players == players
                        && res.value.roster == Indices(|players|)
                        && res.value.moveNum == 0
                        && res.value.lotto.numbers == shuffled
                        && RosterValid(res.value) && BagValid(res.value.lotto)
                        && |res.value.lotto.numbers| == LOTTO_NUM && Distinct(res.value.lotto.numbers)
  {
    if !(2 <= |players| <= 5) then Err(BadPlayerCount)
    else
      var lotto := NewLotto(LOTTO_NUM, shuffled);
      var roster := Indices(|players|);
      assert forall id :: id in roster ==> id < |players|;
      Ok(Round(players, roster, lotto, 0))
  }

  /** The round state carried by a step. */
  function StepRound(s: Step): Round
  {
    match s
    case Continue(r) => r
    case Stop(_, r) => r
  }

  /** One player's `check_move` on `barrel` with the answer and mistake draw `t`: a human's own answer,
      while a robot is handed None, which `check_move` overrides. */
  function PlayerTurn(p: Player, t: Turn, barrel: int): (Player, GameStatus)
  {
    CheckMove(p, if p.isHuman then t.answer else false, t.erred, barrel)
  }

  /** The body of the inner `for` loop for player `id`: take the player's decision (a robot is handed None,
      which `check_move` overrides), resolve it with `check_move`, and on LOOSE remove the player. */
  function TakeTurn(r: Round, id: nat, barrel: int, oracle: (nat, nat) -> Turn): (res: (Round, GameStatus))
    requires RosterValid(r) && id in r.roster
    ensures res.0.lotto == r.lotto && res.0.moveNum == r.moveNum && Evolves(r, res.0)
    ensures res.1 != Loose ==> res.0.roster == r.roster
    ensures res.1 == Loose ==> && id !in res.0.roster && |res.0.roster| + 1 == |r.roster|
                               && forall j :: j in r.roster && j != id ==> j in res.0.roster
    ensures res.1 == Win ==> |res.0.players[id].moves| >= NUMBERS_IN_CARD
    ensures forall i :: 0 <= i < |r.players| && i != id ==> res.0.players[i] == r.players[i]
    ensures PlayerTurn(r.players[id], oracle(r.moveNum, id), barrel) == (res.0.players[id], res.1)
  {
    var (p', status) := PlayerTurn(r.players[id], oracle(r.moveNum, id), barrel);
    var r' := r.(players := r.players[id := p']);
    ReplacePlayerEvolves(r, id, p');
    if status == Loose then
      var r'' := r'.(roster := RemoveFirst(r.roster, id));
      DropPlayerEvolves(r', id);
      EvolvesTransitive(r, r', r'');
      (r'', Loose)
    else
      (r', status)
  }

  /** A LOOSE cuts exactly that player out of the roster and keeps everybody else in order. */
  lemma TakeTurnCutsOut(r: Round, id: nat, barrel: int, oracle: (nat, nat) -> Turn)
    requires RosterValid(r) && id in r.roster
    ensures var res := TakeTurn(r, id, barrel, oracle);
            res.1 == Loose ==> exists i :: 0 <= i < |r.roster| && r.roster[i] == id
                                           && res.0.roster == r.roster[..i] + r.roster[i + 1..]
  {
    var i :| 0 <= i < |r.roster| && r.roster[i] == id;
    assert id !in r.roster[..i];
    RemoveFirstSplits(r.roster, id, i);
  }

  /** The player's answer to `barrel` at move `moveNum` is LOOSE. */
  predicate Lost(players: seq<Player>, moveNum: nat, id: nat, barrel: int, oracle: (nat, nat) -> Turn)
    requires id < |players|
  {
    PlayerTurn(players[id], oracle(moveNum, id), barrel).1 == Loose
  }

  /** The roster `ids` after `barrel` was offered to the players in `pending`: in the same order, without
      those of them whose answer was LOOSE. */
  function Kept(players: seq<Player>, moveNum: nat, ids: seq<nat>, pending: seq<nat>, barrel: int,
                oracle: (nat, nat) -> Turn): (kept: seq<nat>)
    requires forall id :: id in ids ==> id < |players|
    ensures |kept| <= |ids|
    decreases |ids|
  {
    if |ids| == 0 then []
    else
      assert forall id :: id in ids[1..] ==> id in ids;
      var rest := Kept(players, moveNum, ids[1..], pending, barrel, oracle);
      assert ids[0] in ids;
      if ids[0] in pending && Lost(players, moveNum, ids[0], barrel, oracle) then rest else [ids[0]] + rest
  }

  /** The filter keeps exactly the members of `ids` that were not offered the barrel or did not LOOSE. */
  lemma {:induction false} KeptMembers(players: seq<Player>, moveNum: nat, ids: seq<nat>, pending: seq<nat>, barrel: int,
                                       oracle: (nat, nat) -> Turn)
    requires forall id :: id in ids ==> id < |players|
    ensures forall id :: id in Kept(players, moveNum, ids, pending, barrel, oracle) <==>
              id in ids && !(id in pending && Lost(players, moveNum, id, barrel, oracle))
    decreases |ids|
  {
    if |ids| > 0 {
      assert forall id :: id in ids[1..] ==> id in ids;
      KeptMembers(players, moveNum, ids[1..], pending, barrel, oracle);
      assert ids == [ids[0]] + ids[1..];
    }
  }

  lemma {:induction false} KeptConcat(players: seq<Player>, moveNum: nat, a: seq<nat>, b: seq<nat>, pending: seq<nat>,
                                      barrel: int, oracle: (nat, nat) -> Turn)
    requires forall id :: id in a ==> id < |players|
    requires forall id :: id in b ==> id < |players|
    ensures Kept(players, moveNum, a + b, pending, barrel, oracle)
            == Kept(players, moveNum, a, pending, barrel, oracle) + Kept(players, moveNum, b, pending, barrel, oracle)
    decreases |a|
  {
    if |a| > 0 {
      assert (a + b)[0] == a[0] && (a + b)[1..] == a[1..] + b;
      assert forall id :: id in a[1..] ==> id in a;
      KeptConcat(players, moveNum, a[1..], b, pending, barrel, oracle);
    } else {
      assert a + b == b;
    }
  }

  /** Nobody in `ids` was offered the barrel, so all of them are kept. */
  lemma {:induction false} KeptNotPending(players: seq<Player>, moveNum: nat, ids: seq<nat>, pending: seq<nat>,
                                          barrel: int, oracle: (nat, nat) -> Turn)
    requires forall id :: id in ids ==> id < |players| && id !in pending
    ensures Kept(players, moveNum, ids, pending, barrel, oracle) == ids
    decreases |ids|
  {
    if |ids| > 0 {
      assert forall id :: id in ids[1..] ==> id in ids;
      KeptNotPending(players, moveNum, ids[1..], pending, barrel, oracle);
    }
  }

  /** Two filters that drop the same members of `ids` give the same roster. */
  lemma {:induction false} KeptCongruent(p1: seq<Player>, pending1: seq<nat>, p2: seq<Player>, pending2: seq<nat>,
                                         moveNum: nat, ids: seq<nat>, barrel: int, oracle: (nat, nat) -> Turn)
    requires forall id :: id in ids ==> id < |p1| && id < |p2|
    requires forall id :: id in ids ==>
               ((id in pending1 && Lost(p1, moveNum, id, barrel, oracle)) <==> (id in pending2 && Lost(p2, moveNum, id, barrel, oracle)))
    ensures Kept(p1, moveNum, ids, pending1, barrel, oracle) == Kept(p2, moveNum, ids, pending2, barrel, oracle)
    decreases |ids|
  {
    if |ids| > 0 {
      assert ids[0] in ids;
      assert forall id :: id in ids[1..] ==> id in ids;
      KeptCongruent(p1, pending1, p2, pending2, moveNum, ids[1..], barrel, oracle);
    }
  }

  /** A player who lost and was cut out of the roster: filtering the shortened roster for the players still
      to come is filtering the full one for this player and those still to come. */
  lemma KeptDrop(p: seq<Player>, p': seq<Player>, moveNum: nat, a: seq<nat>, id: nat, b: seq<nat>, rest: seq<nat>,
                 barrel: int, oracle: (nat, nat) -> Turn)
    requires id < |p| && Lost(p, moveNum, id, barrel, oracle) && id !in rest
    requires forall x :: x in a ==> x < |p| && x < |p'| && x != id && p'[x] == p[x]
    requires forall x :: x in b ==> x < |p| && x < |p'| && x != id && p'[x] == p[x]
    ensures Kept(p', moveNum, a + b, rest, barrel, oracle) == Kept(p, moveNum, a + ([id] + b), [id] + rest, barrel, oracle)
  {
    KeptConcat(p, moveNum, a, [id] + b, [id] + rest, barrel, oracle);
    KeptConcat(p, moveNum, [id], b, [id] + rest, barrel, oracle);
    assert Kept(p, moveNum, [id], [id] + rest, barrel, oracle) == [];
    KeptConcat(p', moveNum, a, b, rest, barrel, oracle);
    KeptCongruent(p', rest, p, [id] + rest, moveNum, a, barrel, oracle);
    KeptCongruent(p', rest, p, [id] + rest, moveNum, b, barrel, oracle);
  }

  /** A player who stayed: filtering for the players still to come is filtering for this player too. */
  lemma KeptStay(p: seq<Player>, p': seq<Player>, moveNum: nat, ids: seq<nat>, id: nat, rest: seq<nat>,
                 barrel: int, oracle: (nat, nat) -> Turn)
    requires id < |p| && !Lost(p, moveNum, id, barrel, oracle) && id !in rest
    requires forall x :: x in ids ==> x < |p| && x < |p'| && (x != id ==> p'[x] == p[x])
    ensures Kept(p', moveNum, ids, rest, barrel, oracle) == Kept(p, moveNum, ids, [id] + rest, barrel, oracle)
  {
    KeptCongruent(p', rest, p, [id] + rest, moveNum, ids, barrel, oracle);
  }

  /** The players before and after position i of a valid roster are players of the round other than roster[i]. */
  lemma RosterAround(r: Round, i: nat, a: seq<nat>, b: seq<nat>)
    requires RosterValid(r) && i < |r.roster| && a == r.roster[..i] && b == r.roster[i + 1..]
    ensures forall x :: x in a ==> x < |r.players| && x != r.roster[i]
    ensures forall x :: x in b ==> x < |r.players| && x != r.roster[i]
  {
    forall x | x in a
      ensures x < |r.players| && x != r.roster[i]
    {
      var j :| 0 <= j < i && r.roster[j] == x;
      assert x in r.roster;
    }
    forall x | x in b
      ensures x < |r.players| && x != r.roster[i]
    {
      var j :| 0 <= j < |b| && b[j] == x;
      assert r.roster[i + 1 + j] == x && x in r.roster;
    }
  }

  /** Cutting a player who lost out of the roster is one step of the filter. */
  lemma KeptRemoval(r: Round, r': Round, id: nat, i: nat, barrel: int, oracle: (nat, nat) -> Turn, rest: seq<nat>)
    requires RosterValid(r) && RosterValid(r') && i < |r.roster| && r.roster[i] == id && id < |r.players| && id !in rest
    requires Lost(r.players, r.moveNum, id, barrel, oracle)
    requires r'.roster == r.roster[..i] + r.roster[i + 1..] && |r'.players| == |r.players|
    requires forall x :: 0 <= x < |r.players| && x != id ==> r'.players[x] == r.players[x]
    ensures Kept(r'.players, r.moveNum, r'.roster, rest, barrel, oracle)
            == Kept(r.players, r.moveNum, r.roster, [id] + rest, barrel, oracle)
  {
    var a, b := r.roster[..i], r.roster[i + 1..];
    assert r.roster == a + ([id] + b);
    RosterAround(r, i, a, b);
    KeptDrop(r.players, r'.players, r.moveNum, a, id, b, rest, barrel, oracle);
  }

  /** One turn is one step of the filter: the roster after the turn, filtered for the players still to come,
      is the roster before it, filtered for this player and those still to come. */
  lemma TakeTurnKept(r: Round, id: nat, barrel: int, oracle: (nat, nat) -> Turn, rest: seq<nat>)
    requires RosterValid(r) && id in r.roster && id !in rest
    ensures var r' := TakeTurn(r, id, barrel, oracle).0;
            Kept(r'.players, r.moveNum, r'.roster, rest, barrel, oracle)
              == Kept(r.players, r.moveNum, r.roster, [id] + rest, barrel, oracle)
  {
    var (r', status) := TakeTurn(r, id, barrel, oracle);
    if status == Loose {
      TakeTurnCutsOut(r, id, barrel, oracle);
      var i :| 0 <= i < |r.roster| && r.roster[i] == id && r'.roster == r.roster[..i] + r.roster[i + 1..];
      KeptRemoval(r, r', id, i, barrel, oracle, rest);
    } else {
      assert !Lost(r.players, r.moveNum, id, barrel, oracle);
      KeptStay(r.players, r'.players, r.moveNum, r.roster, id, rest, barrel, oracle);
    }
  }

  /** The inner `for` loop: offer `barrel` to snapshot[k..], a copy of the roster taken before the draw.
      A WIN ends the round; a LOOSE drops the player and ends the round once fewer than two remain. */
  function PlayTurns(r: Round, barrel: int, snapshot: seq<nat>, k: nat, oracle: (nat, nat) -> Turn): (s: Step)
    requires RosterValid(r) && Distinct(snapshot) && k <= |snapshot|
    requires forall j :: k <= j < |snapshot| ==> snapshot[j] in r.roster
    ensures var r' := StepRound(s);
            && r'.lotto == r.lotto && r'.moveNum == r.moveNum
            && Evolves(r, r')
    ensures s.Stop? ==> !s.outcome.Exhausted?
    ensures s.Stop? && s.outcome.Won? ==> s.outcome.winner in r.roster
    decreases |snapshot| - k
  {
    if k == |snapshot| then
      Continue(r)
    else
      var id := snapshot[k];
      var (r', status) := TakeTurn(r, id, barrel, oracle);
      if status == Win then
        Stop(Won(id), r')
      else if status == Loose && |r'.roster| < 2 then
        if |r'.roster| == 1 then Stop(LastStanding(r'.roster[0]), r') else Stop(NoneLeft, r')
      else
        assert forall j :: k < j < |snapshot| ==> snapshot[j] != id;
        var s := PlayTurns(r', barrel, snapshot, k + 1, oracle);
        EvolvesTransitive(r, r', StepRound(s));
        s
  }

  /** The inner loop only ever touches the players it offers the barrel to: anyone else, in particular anyone
      already out of the round, is left exactly as they were. */
  lemma {:induction false} PlayTurnsKeepsOthers(r: Round, barrel: int, snapshot: seq<nat>, k: nat, oracle: (nat, nat) -> Turn, i: nat)
    requires RosterValid(r) && Distinct(snapshot) && k <= |snapshot|
    requires forall j :: k <= j < |snapshot| ==> snapshot[j] in r.roster
    requires i < |r.players| && i !in snapshot[k..]
    ensures StepRound(PlayTurns(r, barrel, snapshot, k, oracle)).players[i] == r.players[i]
    decreases |snapshot| - k
  {
    if k < |snapshot| {
      var id := snapshot[k];
      var (r', status) := TakeTurn(r, id, barrel, oracle);
      if status != Win && !(status == Loose && |r'.roster| < 2) {
        assert forall j :: k < j < |snapshot| ==> snapshot[j] != id;
        PlayTurnsKeepsOthers(r', barrel, snapshot, k + 1, oracle, i);
      }
    }
  }

  /** On a pass that goes on, a roster player who is not offered the barrel stays in the roster. */
  lemma {:induction false} PlayTurnsKeepsRoster(r: Round, barrel: int, snapshot: seq<nat>, k: nat, oracle: (nat, nat) -> Turn, i: nat)
    requires RosterValid(r) && Distinct(snapshot) && k <= |snapshot|
    requires forall j :: k <= j < |snapshot| ==> snapshot[j] in r.roster
    requires i in r.roster && i !in snapshot[k..]
    ensures var s := PlayTurns(r, barrel, snapshot, k, oracle);
            s.Continue? ==> i in s.round.roster
    decreases |snapshot| - k
  {
    if k < |snapshot| {
      var id := snapshot[k];
      var (r', status) := TakeTurn(r, id, barrel, oracle);
      if status != Win && !(status == Loose && |r'.roster| < 2) {
        assert forall j :: k < j < |snapshot| ==> snapshot[j] != id;
        assert i in r'.roster;
        PlayTurnsKeepsRoster(r', barrel, snapshot, k + 1, oracle, i);
      }
    }
  }

  /** On a pass that goes on, every player of the snapshot was offered the barrel, in their turn, against the
      state they started the pass in: each ends as `check_move` left them, nobody won, and exactly those whose
      answer was LOOSE have left the roster. */
  lemma {:induction false} PlayTurnsOffered(r: Round, barrel: int, snapshot: seq<nat>, k: nat, oracle: (nat, nat) -> Turn, j: nat)
    requires RosterValid(r) && Distinct(snapshot) && k <= j < |snapshot|
    requires forall j :: k <= j < |snapshot| ==> snapshot[j] in r.roster
    ensures var s := PlayTurns(r, barrel, snapshot, k, oracle);
            var o := PlayerTurn(r.players[snapshot[j]], oracle(r.moveNum, snapshot[j]), barrel);
            s.Continue? ==> && o.1 != Win && s.round.players[snapshot[j]] == o.0
                            && (snapshot[j] in s.round.roster <==> o.1 != Loose)
    decreases |snapshot| - k
  {
    var id := snapshot[k];
    var (r', status) := TakeTurn(r, id, barrel, oracle);
    if status != Win && !(status == Loose && |r'.roster| < 2) {
      assert forall j :: k < j < |snapshot| ==> snapshot[j] != id;
      var s := PlayTurns(r', barrel, snapshot, k + 1, oracle);
      assert PlayTurns(r, barrel, snapshot, k, oracle) == s;
      if j == k {
        PlayTurnsKeepsOthers(r', barrel, snapshot, k + 1, oracle, id);
        if status != Loose {
          PlayTurnsKeepsRoster(r', barrel, snapshot, k + 1, oracle, id);
        }
      } else {
        PlayTurnsOffered(r', barrel, snapshot, k + 1, oracle, j);
        assert r'.players[snapshot[j]] == r.players[snapshot[j]];
      }
    }
  }

  /** The turn of snapshot[k] is the first step of filtering for snapshot[k..]. */
  lemma TakeTurnKeptSuffix(r: Round, barrel: int, snapshot: seq<nat>, k: nat, oracle: (nat, nat) -> Turn)
    requires RosterValid(r) && Distinct(snapshot) && k < |snapshot| && snapshot[k] in r.roster
    ensures var r' := TakeTurn(r, snapshot[k], barrel, oracle).0;
            Kept(r'.players, r.moveNum, r'.roster, snapshot[k + 1..], barrel, oracle)
              == Kept(r.players, r.moveNum, r.roster, snapshot[k..], barrel, oracle)
  {
    assert forall j :: k < j < |snapshot| ==> snapshot[j] != snapshot[k];
    assert snapshot[k] !in snapshot[k + 1..];
    TakeTurnKept(r, snapshot[k], barrel, oracle, snapshot[k + 1..]);
    assert [snapshot[k]] + snapshot[k + 1..] == snapshot[k..];
  }

  /** On a pass that goes on, the roster is the one the pass started with, in the same order, without the
      players offered the barrel whose answer was LOOSE. */
  lemma {:induction false} PlayTurnsRoster(r: Round, barrel: int, snapshot: seq<nat>, k: nat, oracle: (nat, nat) -> Turn)
    requires RosterValid(r) && Distinct(snapshot) && k <= |snapshot|
    requires forall j :: k <= j < |snapshot| ==> snapshot[j] in r.roster
    ensures var s := PlayTurns(r, barrel, snapshot, k, oracle);
            s.Continue? ==> s.round.roster == Kept(r.players, r.moveNum, r.roster, snapshot[k..], barrel, oracle)
    decreases |snapshot| - k
  {
    if k == |snapshot| {
      KeptNotPending(r.players, r.moveNum, r.roster, snapshot[k..], barrel, oracle);
    } else {
      var id := snapshot[k];
      var (r', status) := TakeTurn(r, id, barrel, oracle);
      if status != Win && !(status == Loose && |r'.roster| < 2) {
        assert forall j :: k < j < |snapshot| ==> snapshot[j] != id;
        PlayTurnsRoster(r', barrel, snapshot, k + 1, oracle);
        TakeTurnKeptSuffix(r, barrel, snapshot, k, oracle);
      }
    }
  }

  /** The pass starting at snapshot[k] ended when snapshot[m] lost and fewer than two players were left:
      everybody from snapshot[k] to snapshot[m] played against the state they started the pass in and did not
      win, nobody after snapshot[m] played, and the roster is the starting one, in order, without the players
      of snapshot[k..m] whose answer was LOOSE. */
  predicate EndedByLoss(r: Round, barrel: int, snapshot: seq<nat>, k: nat, m: nat, oracle: (nat, nat) -> Turn,
                        final: Round)
  {
    && RosterValid(r) && k <= m < |snapshot| && |final.players| == |r.players|
    && (forall j :: k <= j < |snapshot| ==> snapshot[j] < |r.players|)
    && Lost(r.players, r.moveNum, snapshot[m], barrel, oracle)
    && (forall j :: k <= j <= m ==>
          var o := PlayerTurn(r.players[snapshot[j]], oracle(r.moveNum, snapshot[j]), barrel);
          o.1 != Win && final.players[snapshot[j]] == o.0)
    && (forall j :: m < j < |snapshot| ==> final.players[snapshot[j]] == r.players[snapshot[j]])
    && final.roster == Kept(r.players, r.moveNum, r.roster, snapshot[k..m + 1], barrel, oracle)
    && |final.roster| < 2
  }

  /** A LOOSE that leaves fewer than two players ends the pass on the spot. */
  lemma EndedByLossFirst(r: Round, r': Round, barrel: int, snapshot: seq<nat>, k: nat, oracle: (nat, nat) -> Turn)
    requires RosterValid(r) && Distinct(snapshot) && k < |snapshot|
    requires forall j :: k <= j < |snapshot| ==> snapshot[j] < |r.players|
    requires RosterValid(r') && |r'.players| == |r.players| && |r'.roster| < 2
    requires forall x :: 0 <= x < |r.players| && x != snapshot[k] ==> r'.players[x] == r.players[x]
    requires PlayerTurn(r.players[snapshot[k]], oracle(r.moveNum, snapshot[k]), barrel) == (r'.players[snapshot[k]], Loose)
    requires Kept(r'.players, r.moveNum, r'.roster, [], barrel, oracle)
             == Kept(r.players, r.moveNum, r.roster, [snapshot[k]] + [], barrel, oracle)
    ensures EndedByLoss(r, barrel, snapshot, k, k, oracle, r')
  {
    KeptNotPending(r'.players, r.moveNum, r'.roster, [], barrel, oracle);
    assert snapshot[k..k + 1] == [snapshot[k]] + [];
    forall j | k < j < |snapshot|
      ensures r'.players[snapshot[j]] == r.players[snapshot[j]]
    {
      assert snapshot[j] != snapshot[k];
    }
  }

  /** A turn that neither wins nor ends the pass puts one more player in front of a pass that ended by loss. */
  lemma EndedByLossStep(r: Round, r': Round, barrel: int, snapshot: seq<nat>, k: nat, m: nat,
                        oracle: (nat, nat) -> Turn, final: Round)
    requires RosterValid(r) && Distinct(snapshot) && k < |snapshot|
    requires forall j :: k <= j < |snapshot| ==> snapshot[j] < |r.players|
    requires r'.moveNum == r.moveNum && |r'.players| == |r.players|
    requires forall x :: 0 <= x < |r.players| && x != snapshot[k] ==> r'.players[x] == r.players[x]
    requires var o := PlayerTurn(r.players[snapshot[k]], oracle(r.moveNum, snapshot[k]), barrel);
             o.1 != Win && o.0 == r'.players[snapshot[k]]
    requires EndedByLoss(r', barrel, snapshot, k + 1, m, oracle, final)
    requires final.players[snapshot[k]] == r'.players[snapshot[k]]
    requires Kept(r'.players, r.moveNum, r'.roster, snapshot[k + 1..m + 1], barrel, oracle)
             == Kept(r.players, r.moveNum, r.roster, [snapshot[k]] + snapshot[k + 1..m + 1], barrel, oracle)
    ensures EndedByLoss(r, barrel, snapshot, k, m, oracle, final)
  {
    assert [snapshot[k]] + snapshot[k + 1..m + 1] == snapshot[k..m + 1];
    assert snapshot[m] != snapshot[k];
    forall j | k < j < |snapshot|
      ensures r'.players[snapshot[j]] == r.players[snapshot[j]]
    {
      assert snapshot[j] != snapshot[k];
    }
  }

  /** A pass that ends without a winner ended because a LOOSE left fewer than two players. */
  lemma {:induction false} PlayTurnsEndedByLoss(r: Round, barrel: int, snapshot: seq<nat>, k: nat, oracle: (nat, nat) -> Turn)
    requires RosterValid(r) && Distinct(snapshot) && k <= |snapshot|
    requires forall j :: k <= j < |snapshot| ==> snapshot[j] in r.roster
    ensures var s := PlayTurns(r, barrel, snapshot, k, oracle);
            s.Stop? && !s.outcome.Won? ==> exists m :: EndedByLoss(r, barrel, snapshot, k, m, oracle, s.round)
    decreases |snapshot| - k
  {
    if k < |snapshot| {
      var id := snapshot[k];
      var (r', status) := TakeTurn(r, id, barrel, oracle);
      if status == Loose && |r'.roster| < 2 {
        EndedByLossNow(r, barrel, snapshot, k, oracle);
      } else if status != Win {
        assert forall j :: k < j < |snapshot| ==> snapshot[j] != id;
        PlayTurnsEndedByLoss(r', barrel, snapshot, k + 1, oracle);
        var s := PlayTurns(r', barrel, snapshot, k + 1, oracle);
        if s.Stop? && !s.outcome.Won? {
          var m :| EndedByLoss(r', barrel, snapshot, k + 1, m, oracle, s.round);
          PlayTurnsKeepsOthers(r', barrel, snapshot, k + 1, oracle, id);
          EndedByLossLater(r, r', barrel, snapshot, k, m, oracle, s.round);
        }
      }
    }
  }

  /** The first player of the pass lost and left fewer than two: the pass ended with them. */
  lemma EndedByLossNow(r: Round, barrel: int, snapshot: seq<nat>, k: nat, oracle: (nat, nat) -> Turn)
    requires RosterValid(r) && Distinct(snapshot) && k < |snapshot|
    requires forall j :: k <= j < |snapshot| ==> snapshot[j] in r.roster
    requires var res := TakeTurn(r, snapshot[k], barrel, oracle); res.1 == Loose && |res.0.roster| < 2
    ensures EndedByLoss(r, barrel, snapshot, k, k, oracle, TakeTurn(r, snapshot[k], barrel, oracle).0)
  {
    var (r', status) := TakeTurn(r, snapshot[k], barrel, oracle);
    assert forall j :: k <= j < |snapshot| ==> snapshot[j] < |r.players|;
    TakeTurnKept(r, snapshot[k], barrel, oracle, []);
    EndedByLossFirst(r, r', barrel, snapshot, k, oracle);
  }

  /** The first player of the pass stayed without winning: if the rest of the pass ended by loss, so did the
      whole of it. */
  lemma EndedByLossLater(r: Round, r': Round, barrel: int, snapshot: seq<nat>, k: nat, m: nat,
                         oracle: (nat, nat) -> Turn, final: Round)
    requires RosterValid(r) && Distinct(snapshot) && k < |snapshot|
    requires forall j :: k <= j < |snapshot| ==> snapshot[j] in r.roster
    requires var res := TakeTurn(r, snapshot[k], barrel, oracle);
             res.0 == r' && res.1 != Win && !(res.1 == Loose && |r'.roster| < 2)
    requires EndedByLoss(r', barrel, snapshot, k + 1, m, oracle, final)
    requires final.players[snapshot[k]] == r'.players[snapshot[k]]
    ensures EndedByLoss(r, barrel, snapshot, k, m, oracle, final)
  {
    var id := snapshot[k];
    assert forall j :: k <= j < |snapshot| ==> snapshot[j] < |r.players|;
    assert id !in snapshot[k + 1..m + 1];
    TakeTurnKept(r, id, barrel, oracle, snapshot[k + 1..m + 1]);
    EndedByLossStep(r, r', barrel, snapshot, k, m, oracle, final);
  }

  /** A winner is a player of the snapshot. */
  lemma {:induction false} PlayTurnsWinnerOffered(r: Round, barrel: int, snapshot: seq<nat>, k: nat, oracle: (nat, nat) -> Turn)
    requires RosterValid(r) && Distinct(snapshot) && k <= |snapshot|
    requires forall j :: k <= j < |snapshot| ==> snapshot[j] in r.roster
    ensures var s := PlayTurns(r, barrel, snapshot, k, oracle);
            s.Stop? && s.outcome.Won? ==> s.outcome.winner in snapshot[k..]
    decreases |snapshot| - k
  {
    if k < |snapshot| {
      var id := snapshot[k];
      var (r', status) := TakeTurn(r, id, barrel, oracle);
      if status != Win && !(status == Loose && |r'.roster| < 2) {
        assert forall j :: k < j < |snapshot| ==> snapshot[j] != id;
        PlayTurnsWinnerOffered(r', barrel, snapshot, k + 1, oracle);
        assert snapshot[k + 1..] == snapshot[k..][1..];
      }
    }
  }

  /** A WIN ends the pass at once: the winner snapshot[m] won with `check_move` on the state they started the
      pass in, everybody before them in the snapshot played and did not win, and nobody after them played. */
  lemma {:induction false} PlayTurnsWinnerAt(r: Round, barrel: int, snapshot: seq<nat>, k: nat, oracle: (nat, nat) -> Turn, m: nat)
    requires RosterValid(r) && Distinct(snapshot) && k <= m < |snapshot|
    requires forall j :: k <= j < |snapshot| ==> snapshot[j] in r.roster
    ensures var s := PlayTurns(r, barrel, snapshot, k, oracle);
            s.Stop? && s.outcome == Won(snapshot[m]) ==>
              && PlayerTurn(r.players[snapshot[m]], oracle(r.moveNum, snapshot[m]), barrel) == (s.round.players[snapshot[m]], Win)
              && (forall j :: k <= j < m ==>
                    var o := PlayerTurn(r.players[snapshot[j]], oracle(r.moveNum, snapshot[j]), barrel);
                    o.1 != Win && s.round.players[snapshot[j]] == o.0)
              && (forall j :: m < j < |snapshot| ==> s.round.players[snapshot[j]] == r.players[snapshot[j]])
    decreases |snapshot| - k
  {
    var id := snapshot[k];
    var (r', status) := TakeTurn(r, id, barrel, oracle);
    assert forall j :: k < j < |snapshot| ==> snapshot[j] != id;
    if status != Win && !(status == Loose && |r'.roster| < 2) {
      var s := PlayTurns(r', barrel, snapshot, k + 1, oracle);
      assert PlayTurns(r, barrel, snapshot, k, oracle) == s;
      if s.Stop? && s.outcome == Won(snapshot[m]) {
        PlayTurnsWinnerOffered(r', barrel, snapshot, k + 1, oracle);
        assert m != k;
        PlayTurnsWinnerAt(r', barrel, snapshot, k + 1, oracle, m);
        PlayTurnsKeepsOthers(r', barrel, snapshot, k + 1, oracle, id);
        forall j | k < j < |snapshot|
          ensures r'.players[snapshot[j]] == r.players[snapshot[j]]
        {
        }
      }
    }
  }

  /** How the inner loop can end: a WIN belongs to a roster player with a full set of moves, the last one
      standing is alone in the roster, and with two or more players to start with the roster never empties. */
  lemma {:induction false} PlayTurnsOutcome(r: Round, barrel: int, snapshot: seq<nat>, k: nat, oracle: (nat, nat) -> Turn)
    requires RosterValid(r) && Distinct(snapshot) && k <= |snapshot|
    requires forall j :: k <= j < |snapshot| ==> snapshot[j] in r.roster
    ensures var s := PlayTurns(r, barrel, snapshot, k, oracle);
            s.Continue? && |r.roster| >= 2 ==> |s.round.roster| >= 2
    ensures var s := PlayTurns(r, barrel, snapshot, k, oracle);
            s.Stop? && s.outcome.Won? ==> |s.round.players[s.outcome.winner].moves| >= NUMBERS_IN_CARD
    ensures var s := PlayTurns(r, barrel, snapshot, k, oracle);
            s.Stop? && s.outcome.LastStanding? ==>
              s.round.roster == [s.outcome.survivor] && s.outcome.survivor in r.roster
    ensures var s := PlayTurns(r, barrel, snapshot, k, oracle);
            s.Stop? && |r.roster| >= 2 ==> !s.outcome.NoneLeft?
    decreases |snapshot| - k
  {
    if k < |snapshot| {
      var id := snapshot[k];
      var (r', status) := TakeTurn(r, id, barrel, oracle);
      if status != Win && !(status == Loose && |r'.roster| < 2) {
        assert forall j :: k < j < |snapshot| ==> snapshot[j] != id;
        PlayTurnsOutcome(r', barrel, snapshot, k + 1, oracle);
      }
    }
  }

  /** One pass of the `while` loop: draw a barrel and offer it to the roster; an empty bag (or a falsy
      barrel, which the bag never holds) ends the round in a draw. */
  function DrawRound(r: Round, oracle: (nat, nat) -> Turn): (s: Step)
    requires RosterValid(r) && BagValid(r.lotto)
    ensures Evolves(r, StepRound(s)) && BagValid(StepRound(s).lotto)
    ensures StepRound(s).lotto.numbers <= r.lotto.numbers
    ensures s.Stop? && s.outcome.Exhausted? ==>
              && s.round.lotto.numbers == [] && s.round.moveNum == r.moveNum
              && s.round.lotto.numbers == r.lotto.numbers && s.round.roster == r.roster
    ensures !(s.Stop? && s.outcome.Exhausted?) ==>
              |StepRound(s).lotto.numbers| + 1 == |r.lotto.numbers| && StepRound(s).moveNum == r.moveNum + 1
    ensures s.Stop? && s.outcome.Won? ==> s.outcome.winner in r.roster
  {
    var (barrel, lotto) := Draw(r.lotto);
    assert barrel.Some? ==> barrel.value in r.lotto.numbers && |lotto.numbers| + 1 == |r.lotto.numbers|;
    assert forall x :: x in lotto.numbers ==> x in r.lotto.numbers;
    if barrel.None? || barrel.value == 0 then
      Stop(Exhausted, r.(lotto := lotto))
    else
      var r1 := r.(lotto := lotto, moveNum := r.moveNum + 1);
      PlayTurns(r1, barrel.value, r1.roster, 0, oracle)
  }

  /** A draw from a non-empty bag is one pass of the inner loop over the roster, with the last barrel of the
      bag and the next move number. */
  lemma DrawRoundPass(r: Round, oracle: (nat, nat) -> Turn)
    requires RosterValid(r) && BagValid(r.lotto) && |r.lotto.numbers| > 0
    ensures var n := |r.lotto.numbers|;
            var r1 := r.(lotto := Lotto(r.lotto.numbers[..n - 1]), moveNum := r.moveNum + 1);
            DrawRound(r, oracle) == PlayTurns(r1, r.lotto.numbers[n - 1], r1.roster, 0, oracle)
  {
    assert r.lotto.numbers[|r.lotto.numbers| - 1] in r.lotto.numbers;
  }

  /** The barrel offered in a pass is the one just drawn from the end of the bag, and the answers are those
      for the new move number: on a pass that goes on, every roster player ends as `check_move` on that barrel
      left them, nobody won, and the roster keeps exactly those whose answer was not LOOSE; a winner won on it. */
  lemma DrawRoundOffersDrawn(r: Round, oracle: (nat, nat) -> Turn)
    requires RosterValid(r) && BagValid(r.lotto) && |r.lotto.numbers| > 0
    ensures var b := r.lotto.numbers[|r.lotto.numbers| - 1];
            var s := DrawRound(r, oracle);
            s.Continue? ==> forall id :: id in r.roster ==>
              var o := PlayerTurn(r.players[id], oracle(r.moveNum + 1, id), b);
              o.1 != Win && s.round.players[id] == o.0
    ensures var b := r.lotto.numbers[|r.lotto.numbers| - 1];
            var s := DrawRound(r, oracle);
            s.Continue? ==> forall id :: id in s.round.roster <==>
              id in r.roster && PlayerTurn(r.players[id], oracle(r.moveNum + 1, id), b).1 != Loose
    ensures var b := r.lotto.numbers[|r.lotto.numbers| - 1];
            var s := DrawRound(r, oracle);
            s.Stop? && s.outcome.Won? ==>
              PlayerTurn(r.players[s.outcome.winner], oracle(r.moveNum + 1, s.outcome.winner), b)
                == (s.round.players[s.outcome.winner], Win)
  {
    var n := |r.lotto.numbers|;
    var b := r.lotto.numbers[n - 1];
    var r1 := r.(lotto := Lotto(r.lotto.numbers[..n - 1]), moveNum := r.moveNum + 1);
    DrawRoundPass(r, oracle);
    var s := PlayTurns(r1, b, r1.roster, 0, oracle);
    forall id | id in r.roster
      ensures var o := PlayerTurn(r.players[id], oracle(r.moveNum + 1, id), b);
              s.Continue? ==> && o.1 != Win && s.round.players[id] == o.0
                              && (id in s.round.roster <==> o.1 != Loose)
    {
      var j :| 0 <= j < |r.roster| && r.roster[j] == id;
      PlayTurnsOffered(r1, b, r1.roster, 0, oracle, j);
    }
    if s.Stop? && s.outcome.Won? {
      PlayTurnsWinnerOffered(r1, b, r1.roster, 0, oracle);
      var m :| 0 <= m < |r.roster| && r.roster[m] == s.outcome.winner;
      PlayTurnsWinnerAt(r1, b, r1.roster, 0, oracle, m);
    }
  }

  /** Who leaves the roster in a pass: on a pass that goes on, the roster is the one before the draw, in the
      same order, without exactly the players whose answer to the drawn barrel was LOOSE; a pass that stops
      with neither a winner nor an empty bag stopped at the first player whose LOOSE left fewer than two. */
  lemma {:induction false} DrawRoundRemovesLosers(r: Round, oracle: (nat, nat) -> Turn)
    requires RosterValid(r) && BagValid(r.lotto) && |r.lotto.numbers| > 0
    ensures var b := r.lotto.numbers[|r.lotto.numbers| - 1];
            var s := DrawRound(r, oracle);
            s.Continue? ==> s.round.roster == Kept(r.players, r.moveNum + 1, r.roster, r.roster, b, oracle)
    ensures var b := r.lotto.numbers[|r.lotto.numbers| - 1];
            var s := DrawRound(r, oracle);
            var next := r.(moveNum := r.moveNum + 1);
            s.Stop? && !s.outcome.Won? && !s.outcome.Exhausted? ==>
              exists m :: EndedByLoss(next, b, r.roster, 0, m, oracle, s.round)
  {
    var n := |r.lotto.numbers|;
    var b := r.lotto.numbers[n - 1];
    var r1 := r.(lotto := Lotto(r.lotto.numbers[..n - 1]), moveNum := r.moveNum + 1);
    DrawRoundPass(r, oracle);
    var s := PlayTurns(r1, b, r1.roster, 0, oracle);
    PlayTurnsRoster(r1, b, r1.roster, 0, oracle);
    assert r1.roster[0..] == r.roster;
    PlayTurnsEndedByLoss(r1, b, r1.roster, 0, oracle);
    if s.Stop? && !s.outcome.Won? {
      var m :| EndedByLoss(r1, b, r1.roster, 0, m, oracle, s.round);
      assert EndedByLoss(r.(moveNum := r.moveNum + 1), b, r.roster, 0, m, oracle, s.round);
    }
  }

  /** How one draw can end the round, as for the inner loop. */
  lemma DrawRoundOutcome(r: Round, oracle: (nat, nat) -> Turn)
    requires RosterValid(r) && BagValid(r.lotto)
    ensures var s := DrawRound(r, oracle);
            s.Continue? && |r.roster| >= 2 ==> |s.round.roster| >= 2
    ensures var s := DrawRound(r, oracle);
            s.Stop? && s.outcome.Won? ==> |s.round.players[s.outcome.winner].moves| >= NUMBERS_IN_CARD
    ensures var s := DrawRound(r, oracle);
            s.Stop? && s.outcome.LastStanding? ==>
              s.round.roster == [s.outcome.survivor] && s.outcome.survivor in r.roster
    ensures var s := DrawRound(r, oracle);
            s.Stop? && |r.roster| >= 2 ==> !s.outcome.NoneLeft?
  {
    var (barrel, lotto) := Draw(r.lotto);
    if barrel.Some? && barrel.value != 0 {
      var r1 := r.(lotto := lotto, moveNum := r.moveNum + 1);
      PlayTurnsOutcome(r1, barrel.value, r1.roster, 0, oracle);
    }
  }

  /** The `while` loop of `run_play_round`: draw until the bag is empty or the round is decided. */
  function RunRound(r: Round, oracle: (nat, nat) -> Turn): (f: Step)
    requires RosterValid(r) && BagValid(r.lotto)
    ensures f.Stop?
    ensures Evolves(r, f.round)
    ensures f.round.lotto.numbers <= r.lotto.numbers
    ensures f.round.moveNum == r.moveNum + (|r.lotto.numbers| - |f.round.lotto.numbers|)
    ensures f.outcome.Exhausted? ==> f.round.lotto.numbers == []
    ensures f.outcome.Exhausted? && |r.roster| >= 2 ==> |f.round.roster| >= 2
    ensures f.outcome.Won? ==>
              f.outcome.winner in r.roster && |f.round.players[f.outcome.winner].moves| >= NUMBERS_IN_CARD
    ensures f.outcome.LastStanding? ==> f.round.roster == [f.outcome.survivor] && f.outcome.survivor in r.roster
    ensures |r.roster| >= 2 ==> !f.outcome.NoneLeft?
    decreases |r.lotto.numbers|
  {
    match DrawRound(r, oracle)
    case Stop(outcome, r2) =>
      DrawRoundOutcome(r, oracle);
      Stop(outcome, r2)
    case Continue(r2) =>
      DrawRoundOutcome(r, oracle);
      var f := RunRound(r2, oracle);
      EvolvesTransitive(r, r2, f.round);
      f
  }

  /** `q` is `r`, or is reached from `r` by draws whose passes all went on. */
  predicate ContinuesTo(r: Round, q: Round, oracle: (nat, nat) -> Turn)
    requires RosterValid(r) && BagValid(r.lotto)
    decreases |r.lotto.numbers|
  {
    || q == r
    || (var s := DrawRound(r, oracle); s.Continue? && ContinuesTo(s.round, q, oracle))
  }

  /** The loop runs draw after draw until one stops: the end of the round is the draw made from a state that
      every earlier pass continued into. */
  lemma {:induction false} RunRoundLastPass(r: Round, oracle: (nat, nat) -> Turn)
    requires RosterValid(r) && BagValid(r.lotto)
    ensures exists q :: && ContinuesTo(r, q, oracle) && RosterValid(q) && BagValid(q.lotto)
                        && DrawRound(q, oracle) == RunRound(r, oracle)
    decreases |r.lotto.numbers|
  {
    var s := DrawRound(r, oracle);
    if s.Stop? {
      assert ContinuesTo(r, r, oracle);
    } else {
      RunRoundLastPass(s.round, oracle);
      var q :| && ContinuesTo(s.round, q, oracle) && RosterValid(q) && BagValid(q.lotto)
               && DrawRound(q, oracle) == RunRound(s.round, oracle);
      assert ContinuesTo(r, q, oracle);
    }
  }

  /** `PlayRound(*players).run_play_round()` from construction to the end of the round. */
  function PlayRound(players: seq<Player>, shuffled: seq<int>, oracle: (nat, nat) -> Turn): (res: Result<Step, RoundError>)
    requires multiset(shuffled) == multiset(NumberRange())
    ensures res.Err? <==> !(2 <= |players| <= 5)
    ensures res.Ok? ==> res.value.Stop?
    ensures res.Ok? ==> !res.value.outcome.NoneLeft?
    ensures res.Ok? && res.value.outcome.Won? ==> res.value.outcome.winner < |players|
    ensures res.Ok? && res.value.outcome.LastStanding? ==>
              res.value.outcome.survivor < |players| && res.value.round.roster == [res.value.outcome.survivor]
    ensures res.Ok? ==> 1 <= res.value.round.moveNum <= LOTTO_NUM
    ensures res.Ok? && res.value.outcome.Exhausted? ==> res.value.round.moveNum == LOTTO_NUM
  {
    match NewRound(players, shuffled)
    case Err(e) => Err(e)
    case Ok(r) =>
      var f := RunRound(r, oracle);
      assert f.outcome.Won? ==> f.outcome.winner in r.roster;
      assert f.outcome.LastStanding? ==> f.outcome.survivor in r.roster;
      Ok(f)
  }

  /** Every player's bookkeeping is consistent. */
  ghost predicate AllConsistent(ps: seq<Player>)
  {
    forall i :: 0 <= i < |ps| ==> Consistent(ps[i])
  }

  /** One turn keeps every player consistent, and a WIN is a fully crossed card. */
  lemma TakeTurnConsistent(r: Round, id: nat, barrel: int, oracle: (nat, nat) -> Turn)
    requires RosterValid(r) && id in r.roster
    requires barrel != BLANK && AllConsistent(r.players)
    ensures AllConsistent(TakeTurn(r, id, barrel, oracle).0.players)
    ensures var (r', status) := TakeTurn(r, id, barrel, oracle);
            status == Win ==> GridNumbers(r'.players[id].card.grid) == []
  {
    var p := r.players[id];
    var t := oracle(r.moveNum, id);
    var strikeOut := if p.isHuman then t.answer else false;
    CheckMoveConsistent(p, strikeOut, t.erred, barrel);
  }

  /** Offering a real barrel keeps every player consistent, and a WIN is a fully crossed card. */
  lemma {:induction false} PlayTurnsConsistent(r: Round, barrel: int, snapshot: seq<nat>, k: nat, oracle: (nat, nat) -> Turn)
    requires RosterValid(r) && Distinct(snapshot) && k <= |snapshot|
    requires forall j :: k <= j < |snapshot| ==> snapshot[j] in r.roster
    requires barrel != BLANK && AllConsistent(r.players)
    ensures AllConsistent(StepRound(PlayTurns(r, barrel, snapshot, k, oracle)).players)
    ensures var s := PlayTurns(r, barrel, snapshot, k, oracle);
            s.Stop? && s.outcome.Won? ==> GridNumbers(s.round.players[s.outcome.winner].card.grid) == []
    decreases |snapshot| - k
  {
    if k < |snapshot| {
      var id := snapshot[k];
      TakeTurnConsistent(r, id, barrel, oracle);
      var (r', status) := TakeTurn(r, id, barrel, oracle);
      if status != Win && !(status == Loose && |r'.roster| < 2) {
        assert forall j :: k < j < |snapshot| ==> snapshot[j] != id;
        PlayTurnsConsistent(r', barrel, snapshot, k + 1, oracle);
      }
    }
  }

  /** One draw keeps every player consistent, and a WIN is a fully crossed card. */
  lemma DrawRoundConsistent(r: Round, oracle: (nat, nat) -> Turn)
    requires RosterValid(r) && BagValid(r.lotto) && AllConsistent(r.players)
    ensures AllConsistent(StepRound(DrawRound(r, oracle)).players)
    ensures var s := DrawRound(r, oracle);
            s.Stop? && s.outcome.Won? ==> GridNumbers(s.round.players[s.outcome.winner].card.grid) == []
  {
    var (barrel, lotto) := Draw(r.lotto);
    var s := DrawRound(r, oracle);
    if barrel.Some? && barrel.value != 0 {
      var r1 := r.(lotto := lotto, moveNum := r.moveNum + 1);
      PlayTurnsConsistent(r1, barrel.value, r1.roster, 0, oracle);
      assert s == PlayTurns(r1, barrel.value, r1.roster, 0, oracle);
    } else {
      assert s == Stop(Exhausted, r.(lotto := lotto));
    }
  }

  /** Over a whole round every player stays consistent, so the winner's card is fully crossed out. */
  lemma {:induction false} RunRoundConsistent(r: Round, oracle: (nat, nat) -> Turn)
    requires RosterValid(r) && BagValid(r.lotto) && AllConsistent(r.players)
    ensures AllConsistent(RunRound(r, oracle).round.players)
    ensures var f := RunRound(r, oracle);
            f.outcome.Won? ==> GridNumbers(f.round.players[f.outcome.winner].card.grid) == []
    decreases |r.lotto.numbers|
  {
    DrawRoundConsistent(r, oracle);
    match DrawRound(r, oracle)
    case Stop(_, _) =>
    case Continue(r2) => RunRoundConsistent(r2, oracle);
  }

  /** No player ever records more than NUMBERS_IN_CARD moves in a round. */
  lemma RunRoundMovesBounded(r: Round, oracle: (nat, nat) -> Turn)
    requires RosterValid(r) && BagValid(r.lotto) && AllConsistent(r.players)
    ensures forall i :: 0 <= i < |r.players| ==> |RunRound(r, oracle).round.players[i].moves| <= NUMBERS_IN_CARD
  {
    RunRoundConsistent(r, oracle);
    var f := RunRound(r, oracle);
    forall i | 0 <= i < |r.players|
      ensures |f.round.players[i].moves| <= NUMBERS_IN_CARD
    {
      assert Consistent(f.round.players[i]);
    }
  }

  /** The turn was answered correctly for a barrel that is not on the card: a human said no, a robot did not err. */
  predicate CorrectSkip(p: Player, t: Turn)
  {
    if p.isHuman then !t.answer else !t.erred
  }

  /** A barrel on none of the remaining cards, skipped correctly by everybody, leaves the round as it was. */
  lemma {:induction false} AbsentBarrelKeepsRound(r: Round, barrel: int, snapshot: seq<nat>, k: nat, oracle: (nat, nat) -> Turn)
    requires RosterValid(r) && Distinct(snapshot) && k <= |snapshot|
    requires forall j :: k <= j < |snapshot| ==> snapshot[j] in r.roster
    requires forall j :: k <= j < |snapshot| ==>
               && Locate(r.players[snapshot[j]].card.grid, barrel).None?
               && CorrectSkip(r.players[snapshot[j]], oracle(r.moveNum, snapshot[j]))
    ensures PlayTurns(r, barrel, snapshot, k, oracle) == Continue(r)
    decreases |snapshot| - k
  {
    if k < |snapshot| {
      var id := snapshot[k];
      var p := r.players[id];
      var t := oracle(r.moveNum, id);
      var strikeOut := if p.isHuman then t.answer else false;
      CorrectSkipChangesNothing(p, strikeOut, t.erred, barrel);
      assert r.(players := r.players[id := p]) == r;
      assert TakeTurn(r, id, barrel, oracle) == (r, NextMove);
      AbsentBarrelKeepsRound(r, barrel, snapshot, k + 1, oracle);
    }
  }

  /** A player whose turn ends in LOOSE leaves the roster for good: they are not in it when the inner loop
      ends, so in particular they are not the last one standing. */
  lemma EliminatedPlayerLeaves(r: Round, barrel: int, snapshot: seq<nat>, k: nat, oracle: (nat, nat) -> Turn)
    requires RosterValid(r) && Distinct(snapshot) && k < |snapshot|
    requires forall j :: k <= j < |snapshot| ==> snapshot[j] in r.roster
    requires TakeTurn(r, snapshot[k], barrel, oracle).1 == Loose
    ensures snapshot[k] !in StepRound(PlayTurns(r, barrel, snapshot, k, oracle)).roster
    ensures |StepRound(PlayTurns(r, barrel, snapshot, k, oracle)).roster| < |r.roster|
  {
    var id := snapshot[k];
    var (r', status) := TakeTurn(r, id, barrel, oracle);
    assert id !in r'.roster;
    assert forall j :: k < j < |snapshot| ==> snapshot[j] != id;
  }
}

=== FILE: seqs.dfy ===
/** Sequence facts the lotto model relies on: distinctness, order, sorting, filtering. */
module Seqs {

  /** No value occurs twice. */
  predicate Distinct<T(==)>(s: seq<T>)
  {
    forall i, j :: 0 <= i < j < |s| ==> s[i] != s[j]
  }

  /** Non-decreasing, the order `sorted` produces. */
  predicate Ascending(s: seq<int>)
  {
    forall i, j :: 0 <= i < j < |s| ==> s[i] <= s[j]
  }

  /** Strictly ascending. */
  predicate Increasing(s: seq<int>)
  {
    forall i, j :: 0 <= i < j < |s| ==> s[i] < s[j]
  }

  /** Python's `set(s)`. */
  function ToSet<T>(s: seq<T>): set<T>
  {
    set x | x in s
  }

  lemma {:induction false} ToSetSize<T>(s: seq<T>)
    ensures |ToSet(s)| <= |s|
    ensures |s| > 0 ==> ToSet(s) == {s[0]} + ToSet(s[1..])
    decreases |s|
  {
    if |s| > 0 {
      assert ToSet(s) == {s[0]} + ToSet(s[1..]);
      ToSetSize(s[1..]);
    } else {
      assert ToSet(s) == {};
    }
  }

  /** A non-empty sequence is duplicate-free iff its head is not repeated and its tail is duplicate-free. */
  lemma DistinctCons<T>(s: seq<T>)
    requires |s| > 0
    ensures Distinct(s) <==> s[0] !in s[1..] && Distinct(s[1..])
  {
    var t := s[1..];
    if Distinct(s) {
      forall i, j | 0 <= i < j < |t|
        ensures t[i] != t[j]
      {
        assert t[i] == s[i + 1] && t[j] == s[j + 1];
      }
      forall j | 0 <= j < |t|
        ensures t[j] != s[0]
      {
        assert t[j] == s[j + 1];
      }
    }
    if s[0] !in t && Distinct(t) {
      forall i, j | 0 <= i < j < |s|
        ensures s[i] != s[j]
      {
        if i > 0 {
          assert s[i] == t[i - 1];
        }
        assert s[j] == t[j - 1];
      }
    }
  }

  /** `len(set(s)) == len(s)` is exactly "no duplicates", in both directions. */
  lemma {:induction false} DistinctIffSetSize<T>(s: seq<T>)
    ensures Distinct(s) <==> |ToSet(s)| == |s|
    decreases |s|
  {
    if |s| > 0 {
      var t := s[1..];
      DistinctIffSetSize(t);
      ToSetSize(s);
      ToSetSize(t);
      DistinctCons(s);
      if s[0] in t {
        assert s[0] in ToSet(t);
        assert ToSet(s) == ToSet(t);
      } else {
        assert s[0] !in ToSet(t);
        assert |ToSet(s)| == |ToSet(t)| + 1;
      }
    } else {
      assert ToSet(s) == {};
    }
  }

  /** Rearranging a sequence keeps it free of duplicates. */
  lemma DistinctPermutation<T(!new)>(s: seq<T>, r: seq<T>)
    requires multiset(s) == multiset(r)
    requires Distinct(s)
    ensures Distinct(r)
  {
    assert |s| == |multiset(s)| == |multiset(r)| == |r|;
    assert forall x :: x in s <==> x in multiset(s);
    assert forall x :: x in r <==> x in multiset(r);
    assert ToSet(s) == ToSet(r);
    DistinctIffSetSize(s);
    DistinctIffSetSize(r);
  }

  /** Strictly ascending means duplicate-free. */
  lemma AscendingIncreasingDistinct(s: seq<int>)
    requires Increasing(s)
    ensures Distinct(s)
  {
  }

  /** Insert `x` into an ascending sequence. */
  function Insert(x: int, s: seq<int>): (r: seq<int>)
    requires Ascending(s)
    ensures Ascending(r)
    ensures multiset(r) == multiset(s) + multiset{x}
    ensures |r| == |s| + 1 && r[0] == if |s| == 0 || x <= s[0] then x else s[0]
    decreases |s|
  {
    if |s| == 0 then [x]
    else if x <= s[0] then
      AscendingCons(x, s);
      [x] + s
    else
      var t := Insert(x, s[1..]);
      assert s == [s[0]] + s[1..];
      AscendingCons(s[0], t);
      [s[0]] + t
  }

  /** A value no larger than the head of an ascending sequence can go in front. */
  lemma AscendingCons(a: int, t: seq<int>)
    requires Ascending(t) && (|t| > 0 ==> a <= t[0])
    ensures Ascending([a] + t)
  {
    forall i, j | 0 <= i < j < |[a] + t|
      ensures ([a] + t)[i] <= ([a] + t)[j]
    {
      if i > 0 {
        assert ([a] + t)[i] == t[i - 1];
      }
      assert ([a] + t)[j] == t[j - 1];
    }
  }

  /** Python's `sorted` on integers (insertion sort). */
  function Sort(s: seq<int>): (r: seq<int>)
    ensures Ascending(r)
    ensures multiset(r) == multiset(s)
    decreases |s|
  {
    if |s| == 0 then []
    else
      assert s == [s[0]] + s[1..];
      Insert(s[0], Sort(s[1..]))
  }

  /** Sorting distinct values yields a strictly ascending sequence with the same members. */
  lemma SortDistinct(s: seq<int>)
    requires Distinct(s)
    ensures Increasing(Sort(s)) && Distinct(Sort(s))
    ensures |Sort(s)| == |s|
    ensures forall x :: x in Sort(s) <==> x in s
    ensures forall k :: 0 <= k < |Sort(s)| ==> Sort(s)[k] in s
  {
    var r := Sort(s);
    DistinctPermutation(s, r);
    assert |r| == |multiset(r)| == |multiset(s)| == |s|;
    assert forall x :: x in r <==> x in multiset(r);
    assert forall x :: x in s <==> x in multiset(s);
  }

  /** `[v for v in s if v not in xs]`: the elements of `s` not in `xs`, in their order. */
  function Without<T(==,!new)>(s: seq<T>, xs: seq<T>): (r: seq<T>)
    ensures forall x :: x in r <==> x in s && x !in xs
    ensures |r| <= |s|
    ensures Distinct(s) ==> Distinct(r)
    decreases |s|
  {
    if |s| == 0 then []
    else
      var t := Without(s[1..], xs);
      assert forall x :: x in s[1..] ==> x in s;
      if s[0] in xs then t else [s[0]] + t
  }

  /** The filter only looks at membership in `xs`. */
  lemma {:induction false} WithoutSameMembers<T(!new)>(s: seq<T>, xs: seq<T>, ys: seq<T>)
    requires forall x :: x in xs <==> x in ys
    ensures Without(s, xs) == Without(s, ys)
    decreases |s|
  {
    if |s| > 0 {
      WithoutSameMembers(s[1..], xs, ys);
    }
  }

  /** Filtering out distinct members of a distinct sequence shrinks it by exactly their count. */
  lemma WithoutLength<T(!new)>(s: seq<T>, xs: seq<T>)
    requires Distinct(s) && Distinct(xs)
    requires forall x :: x in xs ==> x in s
    ensures |Without(s, xs)| == |s| - |xs|
  {
    var r := Without(s, xs);
    DistinctIffSetSize(s);
    DistinctIffSetSize(xs);
    DistinctIffSetSize(r);
    assert ToSet(r) == ToSet(s) - ToSet(xs);
    assert ToSet(xs) <= ToSet(s);
    assert |ToSet(s) - ToSet(xs)| == |ToSet(s)| - |ToSet(xs)|;
  }

  /** Python's `list.remove(x)`: drop the first occurrence of `x`, which must be present
      (`list.remove` raises ValueError otherwise). */
  function RemoveFirst<T(==,!new)>(s: seq<T>, x: T): (r: seq<T>)
    requires x in s
    ensures |r| == |s| - 1
    ensures forall y :: y in r ==> y in s
    ensures forall y :: y in s && y != x ==> y in r
    ensures Distinct(s) ==> Distinct(r) && x !in r
    decreases |s|
  {
    assert forall y :: y in s[1..] ==> y in s;
    if s[0] == x then
      s[1..]
    else
      assert x in s[1..];
      var t := RemoveFirst(s[1..], x);
      assert Distinct(s) ==> s[0] !in s[1..];
      assert Distinct(s) ==> Distinct(s[1..]);
      [s[0]] + t
  }

  /** `list.remove(x)` cuts out exactly the first occurrence and keeps everything else in order. */
  lemma {:induction false} RemoveFirstSplits<T(!new)>(s: seq<T>, x: T, i: nat)
    requires i < |s| && s[i] == x && x !in s[..i]
    ensures RemoveFirst(s, x) == s[..i] + s[i + 1..]
    decreases i
  {
    if i > 0 {
      assert s[1..][..i - 1] == s[..i][1..];
      RemoveFirstSplits(s[1..], x, i - 1);
      assert s[..i] == [s[0]] + s[1..][..i - 1];
      assert s[i + 1..] == s[1..][i..];
    }
  }

  /** Concatenating disjoint duplicate-free sequences keeps them duplicate-free. */
  lemma DistinctConcat<T(!new)>(a: seq<T>, b: seq<T>)
    requires Distinct(a) && Distinct(b)
    requires forall x :: x in a ==> x !in b
    ensures Distinct(a + b)
  {
    forall i, j | 0 <= i < j < |a + b|
      ensures (a + b)[i] != (a + b)[j]
    {
      if j >= |a| && i < |a| {
        assert (a + b)[i] in a && (a + b)[j] in b;
      }
    }
  }
}

=== FILE: wrappers.dfy ===
/** Failure-carrying result types used across the lotto model. */
module Wrappers {

  /** Python's `None` versus a present value. */
  datatype Option<+T> = None | Some(value: T)

  /** A value, or the error a constructor raises (`ValueError` in the source). */
  datatype Result<+T, +E> = Ok(value: T) | Err(error: E)
}
